=== FILE: README.md ===
# WPQA report — a Dafny model

This project models the `WPQA` report of the WordPress Project QA rulesets for
PHP_CodeSniffer (`Reports/WPQA.php`). The report works in two phases.

- **Per-file phase** (`generateFileReport`):
  - On first use it picks a category table from the active standards: basic
    plus strict under `WP-QA-Strict`, basic alone under `WP-QA-Basic`, and
    otherwise exit code 3.
  - It classifies the file as `plugin`, `test` or `vendor` from its path.
  - It walks the file's tokens to count code, comment and blank lines.
  - It files every message under the category of the first sniff prefix that
    matches its source.
  - It writes one `File info` line, then one `Cat info` line per category.
- **Summary phase** (`generate`):
  - It reads those lines back and adds them up per file kind and per
    (kind, category).
  - It decides what the summary shows: the file-statistics rows, the totals
    row, the test-file notice, one category table per kind that had findings
    (a dash or a number in each cell), and the "extraordinarily low" notice.

The model keeps the code's quirks rather than correcting them:

- The line walk starts from line 0. That phantom line is always counted as
  one blank line.
- The last line of a file is counted only when something is on it.
- A message whose source matches no sniff prefix is counted under the
  category left over from an earlier message of the same file.
- `WordPress.DB.PreparedSQL` comes before `WordPress.DB.PreparedSQLPlaceholders`
  in the union table, so it shadows it.

Because of the phantom line 0, the four-line file of comment, code, blank and
code gets `blank = 2` from the code, not 1. Code, comment and blank therefore
add up to one more than the line count when the last line is not blank. The model
follows the code here (`LineCount.FourLineExample`, `LineCount.CountsSum`).

Modules, one per concern:

| module | contents |
|---|---|
| `Wrappers` | `Option` and `Result` |
| `Seqs` | `array_unique`, as `Dedup` |
| `Text` | `explode`/`implode`, decimal counters, case-insensitive search |
| `Categories` | the two tables, the PHP array union, profile selection and prefix resolution |
| `FileKinds` | the path classification |
| `LineCount` | the token walk and its set-based meaning |
| `Tally` | per-file category counting |
| `Records` | the `File info` / `Cat info` text and its round trip |
| `Aggregate` | the summary's fold |
| `Report` | the two phases end to end, and the summary's decisions |

## Model

| member | source | states |
|---|---|---|
| Categories.PhpUnion | Reports/WPQA.php:188 | the array union keeps the left table and appends only right entries whose key the left table lacks, and every such entry |
| Categories.PhpUnionFilter | Reports/WPQA.php:188 | the array union is the left table followed by the right entries whose key the left table lacks, in their right-hand order |
| Categories.StrictTableIsConcatenation | Reports/WPQA.php:39-123 | no strict key occurs in the basic table, so basic + strict is the plain concatenation of the two tables |
| Categories.BasicStrictDisjoint | Reports/WPQA.php:39-123 | every strict sniff prefix is absent from the basic table |
| Categories.SelectTable | Reports/WPQA.php:185-195 | a table already chosen is kept; otherwise strict wins over basic; the call fails with code 3 exactly when neither profile is listed; a chosen table is never empty |
| Categories.Resolve | Reports/WPQA.php:270-275 | a message's category is the label of the first entry whose prefix starts its sniff code, and there is none exactly when no prefix matches (with `Categories.ResolveIndex` and `Categories.ResolveFirstMatch`) |
| Categories.ResolveIndex | Reports/WPQA.php:270-275 | the result is the first entry whose prefix starts the source, and none when no entry matches |
| Categories.ResolveFirstMatch | Reports/WPQA.php:270-275 | the first matching entry decides the category, whatever later entries say |
| Categories.ShadowedEntryUnreachable | Reports/WPQA.php:270-275 | an entry whose prefix extends an earlier entry's prefix is never the one chosen |
| Categories.PlaceholdersShadowed | Reports/WPQA.php:87-103 | the PreparedSQLPlaceholders entry of the union table can never be chosen |
| Categories.PlaceholdersResolveToInsecure | Reports/WPQA.php:270-275 | a PreparedSQLPlaceholders message is filed as insecure code, through the PreparedSQL entry |
| Categories.LabelsKnown | Reports/WPQA.php:39-123 | every category of the union table is one of the thirteen known labels |
| FileKinds.ClassifyPath | Reports/WPQA.php:203-210 | vendor exactly when a `vendor` directory occurs, case-insensitively, between separators; test when it does not and `test` or `tests` does; plugin otherwise |
| FileKinds.VendorTakesPriority | Reports/WPQA.php:204-205 | a path with a vendor directory is vendor whatever else it contains |
| FileKinds.TestingIsNotTest | Reports/WPQA.php:206-209 | a `testing` directory does not make a test file |
| FileKinds.TrailingTestIsNotTest | Reports/WPQA.php:206-209 | `test` as the last path component, with no separator after it, does not make a test file |
| FileKinds.TestsDirIsTest | Reports/WPQA.php:208-209 | a file under `tests` is a test file |
| FileKinds.SourceDirIsPlugin | Reports/WPQA.php:203 | a file under no special directory is a plugin file |
| FileKinds.ParseKindName | Reports/WPQA.php:257 | the kind name written in a record is read back as the same kind |
| LineCount.WalkMeans | Reports/WPQA.php:222-247 | after any ordered token prefix, the walk's counters are the sizes of the sets of lines holding code, holding only comments, and holding nothing, with the current line pending |
| LineCount.CountLines | Reports/WPQA.php:215-254 | the total is the last token's line; for ordered tokens, code = number of lines with a non-whitespace, non-comment token, comment = number of lines with comments but no code, blank = 1 (line 0) + blank lines other than the last token's line, and blank never exceeds the total (with `LineCount.WalkCounts`, `LineCount.CountsSum` and `LineCount.ClassifyLines`) |
| LineCount.WalkCounts | Reports/WPQA.php:222-254 | for ordered tokens, the walk's counters with the pending line filed are the sizes of the code, comment-only and blank line sets, and the blank count stays within the last line number |
| LineCount.CountsSum | Reports/WPQA.php:215-254 | code + comment + blank equals the number of token lines, plus one when the last line is not blank |
| LineCount.TrailingWhitespaceNeutral | Reports/WPQA.php:238-240 | a whitespace token added on the last line changes no counter |
| LineCount.ClassifyLines | Reports/WPQA.php:215-254 | the imperative loop computes the same counters, with the set meaning and the blank bound for ordered tokens |
| LineCount.FourLineExample | Reports/WPQA.php:215-254 | comment, code, blank, code lines give total 4, code 2, comment 1, blank 2 |
| Tally.TallyFindings | Reports/WPQA.php:266-291 | the category in force after the messages is that of the last one that matched a prefix, and the counters add up to the number of messages filed (with `Tally.TallyLabels`, `Tally.TallyCounts` and `Tally.TallyPositive`) |
| Tally.TallyLabels | Reports/WPQA.php:281-286 | the categories are listed in order of first filing, each once |
| Tally.TallyCounts | Reports/WPQA.php:288 | each (category, severity) counter equals the number of messages filed there |
| Tally.TallyPositive | Reports/WPQA.php:281-288 | every category listed has at least one error or warning |
| Tally.TallyDistinct | Reports/WPQA.php:281-286 | no category is listed twice |
| Tally.StaleCategory | Reports/WPQA.php:277-288 | a message matching no prefix, after one that matched, is counted under the earlier category |
| Tally.SkippedBeforeMatch | Reports/WPQA.php:277-279 | a message matching no prefix, before any match, changes nothing |
| Tally.StaleExample | Reports/WPQA.php:270-288 | an error on `A.x` then a warning on `B.y` with only prefix `A.` gives one error and one warning under the category of `A.` |
| Tally.Bump | Reports/WPQA.php:281-288 | counting one message raises the total by one (which counter moves and where a new category goes are stated by `Tally.BumpCount` and `Tally.BumpLabels`) |
| Tally.BumpCount | Reports/WPQA.php:288 | counting a message raises exactly the counter of its category and severity by one, and no other counter |
| Tally.BumpLabels | Reports/WPQA.php:281-286 | a category seen before keeps the category list unchanged; a new one is appended at its end |
| Records.Emit | Reports/WPQA.php:256-261 | each record, `File info` here and `Cat info` at lines 293-299 alike, becomes one line ended by the EOL, so the text is empty exactly when there are no records and otherwise ends with a line break (with `Records.RoundTrip` and `Records.EmitAppend`) |
| Records.ParseAll | Reports/WPQA.php:352-367 | reading fails exactly when some line is a malformed record line, and gives at most one record per line (with `Records.RoundTrip`) |
| Records.ParseLine | Reports/WPQA.php:352-367 | a line is a file record only if its first field is `File info`, and is ignored exactly when the first field is neither tag |
| Records.ParseSerialize | Reports/WPQA.php:256-261 | reading back a record line with a clean label gives the same record |
| Records.RoundTrip | Reports/WPQA.php:334-367 | the summary reads back exactly the records the file reports wrote, in order |
| Records.EmitNoLines | Reports/WPQA.php:334-339 | the cached text has no lines exactly when no record was written |
| Records.EmitAppend | Reports/WPQA.php:293-299 | writing records in two goes writes their concatenation |
| Text.SplitJoin | Reports/WPQA.php:353 | splitting the `>>`-join of pieces without `>` gives the pieces back |
| Text.ParseNatToString | Reports/WPQA.php:355-366 | a written counter reads back as the same number |
| Text.ContainsCI | Reports/WPQA.php:204 | containment holds exactly when the needle occurs somewhere, ignoring ASCII case |
| Seqs.Dedup | Reports/WPQA.php:478 | every value is kept once, no others, in order of first occurrence |
| Aggregate.FoldPermutation | Reports/WPQA.php:352-368 | the statistics of the records do not depend on their order |
| Aggregate.AddCommutes | Reports/WPQA.php:352-367 | adding two records in either order gives the same statistics |
| Aggregate.FoldFiles | Reports/WPQA.php:354-359 | a kind's file statistics are the sums over that kind's file records |
| Aggregate.Fold | Reports/WPQA.php:352-368 | a (kind, category) entry exists exactly when some category record has that kind and category (with `Aggregate.FoldFiles`, `Aggregate.FoldCats` and `Aggregate.FoldPermutation`) |
| Aggregate.FoldCats | Reports/WPQA.php:360-366 | each (kind, category) entry is the sum over the matching category records |
| Aggregate.CatKinds | Reports/WPQA.php:488 | one category table per kind that has a category record, each kind once, in the order the kinds first appear in category records, as the statistics array gains its keys at line 362 |
| Aggregate.TotalsSum | Reports/WPQA.php:428-438 | every figure of the totals row (files, lines, code, comment and blank lines, non-blank lines) is the sum of the three kinds' figures |
| Report.FileCats | Reports/WPQA.php:266-299 | one category record per category filed, in order of first filing, with that category's error and warning counts, never both zero |
| Report.FileReport | Reports/WPQA.php:185-299 | fails with code 3 exactly when no table was chosen yet and neither profile is listed; otherwise keeps the chosen table or picks basic + strict or basic, writes the `File info` record of the path's kind and line counts, then one `Cat info` record per category filed, in order of first filing, with its error and warning counts, never both zero |
| Report.RunFrom | Reports/WPQA.php:185-299 | the run over the files fails with code 3 exactly when there is a file, no table was chosen yet and neither profile is listed; otherwise it writes, in file order, each file's `File info` record and `Cat info` records, all under the one table chosen for the first file and reused for the rest, so at least one record per file (with `Report.RunFromClean`, `Report.RunFromSane` and `Report.RunSummary`) |
| Report.Run | Reports/WPQA.php:185-195 | a run from no table fails exactly when there is a file and neither profile is among the standards |
| Report.RunFromClean | Reports/WPQA.php:256-299 | a run with no files, a chosen table or a listed profile succeeds, and every record it writes has a category label without `>` or line breaks |
| Report.RunFromSane | Reports/WPQA.php:216-261 | a run with no files, a chosen table or a listed profile succeeds, and no file record it writes has more blank lines than total lines |
| Report.RunSummary | Reports/WPQA.php:256-368 | a run with no files or a listed profile succeeds; the summary reads back exactly its records and sees no lines exactly when no file was processed |
| Report.EmptyRunSilent | Reports/WPQA.php:334-339 | empty cached text yields no summary |
| Report.KnownLabelsClean | Reports/WPQA.php:39-123 | no category label contains `>` or a line break |
| Report.ReportWidth | Reports/WPQA.php:332 | the report width is the requested width, raised to 78 when smaller |
| Report.RowOf | Reports/WPQA.php:399-420 | a kind's row shows code and comment shares exactly when it has a non-blank line, and then carries its non-blank, code and comment counts; otherwise it carries its total line count; its file count is the kind's |
| Report.RowSharesMeans | Reports/WPQA.php:399-420 | a kind's row shows shares exactly when some file of that kind has a non-blank line |
| Report.TestNoticeMeans | Reports/WPQA.php:424-426 | the test notice shows exactly when every test file is all blank, no test files included |
| Report.RunTestNotice | Reports/WPQA.php:424-426 | for a run with no files or a listed profile, the test notice shows exactly when every test file has as many blank lines as lines |
| Report.CategoryRows | Reports/WPQA.php:478 | the category rows are the table's categories, each once, in order of first appearance |
| Report.CatRowOf | Reports/WPQA.php:496-530 | a cell shows a number exactly when the category has a positive counter for that kind, and that number is the counter |
| Report.CellOfRecords | Reports/WPQA.php:360-366 | a cell shows the sum of the matching records' counters, when positive |
| Report.TotalsDash | Reports/WPQA.php:538-554 | a column's total is zero exactly when every cell of the column is a dash |
| Report.TypeTableOf | Reports/WPQA.php:488-558 | a kind's table has one row per category, the i-th being that category's row; its total shows a number exactly when some row does, and that number is the kind's counters summed over the categories |
| Report.RowTotals | Reports/WPQA.php:509-554 | a column total adds exactly the counts its rows show |
| Report.LowSignalIff | Reports/WPQA.php:569-571 | the low-signal notice shows exactly when there are no issues or issues are under 0.2 percent (500 × issues < non-blank lines) |
| Report.LowSignalExamples | Reports/WPQA.php:569-571 | 1 issue in 1000 lines is low, 2 and 5 are not |
| Report.Decide | Reports/WPQA.php:397-571 | the kind rows follow the plugin, test, vendor order; the totals row is the row of the summed statistics; the notices are decided as above; one table per kind listed; the width is the requested width raised to 78 |
| Report.Generate | Reports/WPQA.php:332-339 | no summary exactly when the cached text has no lines |
| Report.RunGenerate | Reports/WPQA.php:185-571 | for a run over at least one file with a profile listed, and the table that run chose, the summary of the cached text is the decision for exactly the records the files wrote |
| Report.SummaryOrderFree | Reports/WPQA.php:344-571 | records read in any order give the same statistics, the same rows and notices, and the same category tables up to their order |

## Left out

- Output formatting is not modelled: `echo_line`, `wordwrap`, the ANSI
  styling, `str_pad`, `sprintf` widths and the fixed banner texts. The model
  stops at what each row, cell and notice shows.
- Percentages are floating point in the source. The category cells carry the
  counts only. The low-signal test is modelled in exact rational arithmetic
  and proved equal to `500 × issues < non-blank lines`.
- `Timing::printRunTime` and the `$toScreen`/`$interactive` flags are left
  out; they only print the run time.
- Host inputs become parameters:
  - the file's token stream, as line numbers with a whitespace/comment/code
    kind;
  - the configured standards;
  - `DIRECTORY_SEPARATOR`, as `sep`;
  - the run totals `totalErrors`/`totalWarnings`.
- The message nesting by line and column is flattened into one sequence in
  the same order.
- `autoload-bootstrap.php` is not part of this model. It only loads classes.
- `PHP_EOL` is fixed to `"\n"`.
- Report.Generate: requires that every `File info`/`Cat info` line is well
  formed. The file reports only write such lines (`Records.RoundTrip`).
  Lines with any other first field are ignored, as in the source.
- LineCount.CountLines: requires a non-empty token stream. The source reads
  the last token without a guard.
- LineCount.CountLines: states the meaning of the counts only for tokens
  whose line numbers never decrease, as PHP_CodeSniffer's tokenizer
  delivers them.
- Report.Generate: requires every division the summary performs to be
  defined. These are the percentages at lines 511, 521, 542 and 550, and
  the ratio at 570. The source would fail or print NAN when a kind
  with findings, or the whole run, has no non-blank line.
- Report.Generate: takes the category table as a parameter. The source
  reads the table field that the file phase set on the same report object.
  `Report.RunGenerate` ties it to the table a run over at least one file
  chooses.
- Report.SummaryOrderFree: the category tables appear in the order kinds
  first occur in the records. So the order of the tables depends on the
  order of the records, while their contents do not.

=== FILE: aggregate.dfy ===
/**
 * The summary's reading of the records: `File info` records add their
 * counts to the statistics of their file kind, `Cat info` records add to a
 * (kind, category) tally that starts at zero when first seen.
 */
module Aggregate {
  import opened Seqs
  import opened FileKinds
  import opened LineCount
  import opened Records

  /** The statistics of one file kind, or of all files. */
  datatype FileStats = FileStats(totalLines: nat, codeLines: nat, commentLines: nat, blankLines: nat, files: nat)

  const ZeroStats: FileStats := FileStats(0, 0, 0, 0, 0)

  /** The statistics of each file kind. */
  datatype KindStats = KindStats(plugin: FileStats, test: FileStats, vendor: FileStats) {
    function Get(k: FileKind): FileStats {
      match k
      case Plugin => plugin
      case Test => test
      case Vendor => vendor
    }

    function Set(k: FileKind, s: FileStats): (r: KindStats)
      ensures r.Get(k) == s
      ensures forall j :: j != k ==> r.Get(j) == Get(j)
    {
      match k
      case Plugin => this.(plugin := s)
      case Test => this.(test := s)
      case Vendor => this.(vendor := s)
    }
  }

  const ZeroKinds: KindStats := KindStats(ZeroStats, ZeroStats, ZeroStats)

  datatype CatTally = CatTally(errors: nat, warnings: nat)

  /** The numbers the summary computes from the records. */
  datatype Stats = Stats(files: KindStats, cats: map<(FileKind, string), CatTally>)

  const Empty: Stats := Stats(ZeroKinds, map[])

  /** One file's counts added to the statistics of its kind. */
  function AddFile(s: FileStats, c: LineCounts): (r: FileStats)
    ensures r.files == s.files + 1
  {
    FileStats(s.totalLines + c.totalLines, s.codeLines + c.code, s.commentLines + c.comment,
              s.blankLines + c.blank, s.files + 1)
  }

  /** The tally of `key`, zero when the key has not been seen. */
  function TallyOf(m: map<(FileKind, string), CatTally>, key: (FileKind, string)): CatTally {
    if key in m then m[key] else CatTally(0, 0)
  }

  /** The summary's loop body for one record. */
  function Add(s: Stats, r: Record): Stats {
    match r
    case FileInfo(k, c) => s.(files := s.files.Set(k, AddFile(s.files.Get(k), c)))
    case CatInfo(k, cat, e, w) =>
      var prev := TallyOf(s.cats, (k, cat));
      s.(cats := s.cats[(k, cat) := CatTally(prev.errors + e, prev.warnings + w)])
  }

  /**
   * The statistics after the records `rs`, read in order: a (kind, category)
   * tally exists exactly when a `Cat info` record for that pair was read.
   */
  function Fold(rs: seq<Record>): (s: Stats)
    ensures forall k, c :: (k, c) in s.cats <==>
              exists i :: 0 <= i < |rs| && rs[i].CatInfo? && rs[i].kind == k && rs[i].category == c
    decreases |rs|
  {
    if |rs| == 0 then Empty
    else
      var init := rs[..|rs| - 1];
      assert forall i :: 0 <= i < |init| ==> init[i] == rs[i];
      Add(Fold(init), rs[|rs| - 1])
  }

  /**
   * The kinds of the category tables, in the order the summary prints them:
   * the order in which each kind first appears in a `Cat info` record.
   */
  function CatKinds(rs: seq<Record>): (ks: seq<FileKind>)
    ensures Distinct(ks)
    ensures forall k :: k in ks <==> exists i :: 0 <= i < |rs| && rs[i].CatInfo? && rs[i].kind == k
    ensures forall k :: k in ks ==> k in CatInfoKinds(rs)
    ensures forall i, j :: 0 <= i < j < |ks| ==>
              FirstIndex(CatInfoKinds(rs), ks[i]) < FirstIndex(CatInfoKinds(rs), ks[j])
  {
    var kinds := CatInfoKinds(rs);
    DedupElements(kinds);
    Dedup(kinds)
  }

  /** The kinds of the `Cat info` records, in order. */
  function CatInfoKinds(rs: seq<Record>): (ks: seq<FileKind>)
    ensures forall k :: k in ks <==> exists i :: 0 <= i < |rs| && rs[i].CatInfo? && rs[i].kind == k
    decreases |rs|
  {
    if |rs| == 0 then []
    else
      var rest := CatInfoKinds(rs[1..]);
      assert forall i :: 1 <= i < |rs| ==> rs[i] == rs[1..][i - 1];
      if rs[0].CatInfo? then [rs[0].kind] + rest else rest
  }

  // ---------------------------------------------------------------------------
  // Order independence
  // ---------------------------------------------------------------------------

  lemma AddFileCommutes(s: FileStats, a: LineCounts, b: LineCounts)
    ensures AddFile(AddFile(s, a), b) == AddFile(AddFile(s, b), a)
  {
  }

  /** Two records can be read in either order. */
  lemma AddCommutes(s: Stats, x: Record, y: Record)
    ensures Add(Add(s, x), y) == Add(Add(s, y), x)
  {
    match (x, y)
    case (FileInfo(k1, c1), FileInfo(k2, c2)) =>
      if k1 == k2 {
        AddFileCommutes(s.files.Get(k1), c1, c2);
      } else {
        KindSetsCommute(s.files, k1, k2, AddFile(s.files.Get(k1), c1), AddFile(s.files.Get(k2), c2));
      }
    case (CatInfo(k1, c1, e1, w1), CatInfo(k2, c2, e2, w2)) =>
      var m := s.cats;
      var a, b := (k1, c1), (k2, c2);
      if a != b {
        var u := CatTally(TallyOf(m, a).errors + e1, TallyOf(m, a).warnings + w1);
        var v := CatTally(TallyOf(m, b).errors + e2, TallyOf(m, b).warnings + w2);
        assert TallyOf(m[a := u], b) == TallyOf(m, b);
        assert TallyOf(m[b := v], a) == TallyOf(m, a);
        assert m[a := u][b := v] == m[b := v][a := u];
      }
    case _ =>
  }

  lemma KindSetsCommute(ks: KindStats, k1: FileKind, k2: FileKind, s1: FileStats, s2: FileStats)
    requires k1 != k2
    ensures ks.Set(k1, s1).Set(k2, s2) == ks.Set(k2, s2).Set(k1, s1)
  {
  }

  /** Reading `x` in the middle gives what reading it last gives. */
  lemma {:induction false} FoldMove(a: seq<Record>, x: Record, b: seq<Record>)
    ensures Fold(a + [x] + b) == Add(Fold(a + b), x)
    decreases |b|
  {
    if |b| == 0 {
      assert a + [x] + b == a + [x];
      assert a + b == a;
      FoldSnoc(a, x);
    } else {
      var b', y := b[..|b| - 1], b[|b| - 1];
      FoldMove(a, x, b');
      assert a + [x] + b == (a + [x] + b') + [y];
      assert a + b == (a + b') + [y];
      FoldSnoc(a + [x] + b', y);
      FoldSnoc(a + b', y);
      AddCommutes(Fold(a + b'), x, y);
    }
  }

  /** Reading one more record adds it to the statistics. */
  lemma FoldSnoc(p: seq<Record>, y: Record)
    ensures Fold(p + [y]) == Add(Fold(p), y)
  {
    var q := p + [y];
    assert q[..|q| - 1] == p;
  }

  /** The statistics do not depend on the order of the records. */
  lemma {:induction false} FoldPermutation(rs: seq<Record>, qs: seq<Record>)
    requires multiset(rs) == multiset(qs)
    ensures Fold(rs) == Fold(qs)
    decreases |rs|
  {
    if |rs| == 0 {
      assert |qs| == |multiset(qs)| == 0;
    } else {
      var init, x := rs[..|rs| - 1], rs[|rs| - 1];
      var a, b := RemoveLast(rs, qs);
      FoldPermutation(init, a + b);
      FoldMove(a, x, b);
    }
  }

  /** The last record of `rs` sits somewhere in a permutation `qs`; around it lies a permutation of the rest. */
  lemma RemoveLast(rs: seq<Record>, qs: seq<Record>) returns (a: seq<Record>, b: seq<Record>)
    requires |rs| > 0 && multiset(rs) == multiset(qs)
    ensures qs == a + [rs[|rs| - 1]] + b
    ensures multiset(rs[..|rs| - 1]) == multiset(a + b)
  {
    var init, x := rs[..|rs| - 1], rs[|rs| - 1];
    InitLast(rs);
    assert x in multiset(qs);
    var i :| 0 <= i < |qs| && qs[i] == x;
    a, b := qs[..i], qs[i + 1..];
    assert qs == a + [x] + b;
    assert multiset(rs) == multiset(init) + multiset{x};
    assert multiset(qs) == multiset(a) + multiset{x} + multiset(b);
    assert multiset(a + b) == multiset(a) + multiset(b);
    assert multiset(init) == multiset(rs) - multiset{x};
    assert multiset(a + b) == multiset(qs) - multiset{x};
  }

  // ---------------------------------------------------------------------------
  // What the statistics hold
  // ---------------------------------------------------------------------------

  /** The summed counts of the `File info` records of kind `k`, read front to back. */
  function FileSum(rs: seq<Record>, k: FileKind): FileStats
    decreases |rs|
  {
    if |rs| == 0 then ZeroStats
    else
      var rest := FileSum(rs[1..], k);
      match rs[0]
      case FileInfo(j, c) => if j == k then AddFile(rest, c) else rest
      case CatInfo(_, _, _, _) => rest
  }

  /** Reading a record first or last gives the same statistics. */
  lemma FoldFront(rs: seq<Record>)
    requires |rs| > 0
    ensures Fold(rs) == Add(Fold(rs[1..]), rs[0])
  {
    FoldMove([], rs[0], rs[1..]);
    assert [] + [rs[0]] + rs[1..] == rs;
    assert [] + rs[1..] == rs[1..];
  }

  /** Each kind's statistics are the sums of that kind's `File info` records. */
  lemma {:induction false} FoldFiles(rs: seq<Record>, k: FileKind)
    ensures Fold(rs).files.Get(k) == FileSum(rs, k)
    decreases |rs|
  {
    if |rs| > 0 {
      FoldFront(rs);
      FoldFiles(rs[1..], k);
      var s := Fold(rs[1..]);
      match rs[0]
      case FileInfo(j, c) =>
        assert AddFile(FileSum(rs[1..], k), c) == AddFile(s.files.Get(k), c);
      case CatInfo(_, _, _, _) =>
    }
  }

  /** The summed counters of the `Cat info` records for `key`, read front to back. */
  function CatSum(rs: seq<Record>, key: (FileKind, string)): CatTally
    decreases |rs|
  {
    if |rs| == 0 then CatTally(0, 0)
    else
      var rest := CatSum(rs[1..], key);
      match rs[0]
      case CatInfo(k, c, e, w) =>
        if (k, c) == key then CatTally(rest.errors + e, rest.warnings + w) else rest
      case FileInfo(_, _) => rest
  }

  /** Each (kind, category) tally is the sum of that pair's `Cat info` records. */
  lemma {:induction false} FoldCats(rs: seq<Record>, key: (FileKind, string))
    ensures TallyOf(Fold(rs).cats, key) == CatSum(rs, key)
    decreases |rs|
  {
    if |rs| > 0 {
      FoldFront(rs);
      FoldCats(rs[1..], key);
      CatAdds(Fold(rs[1..]), rs[0], key);
    }
  }

  /** Every `Cat info` record adds its counts to its own tally and to no other. */
  lemma CatAdds(s: Stats, r: Record, key: (FileKind, string))
    ensures TallyOf(Add(s, r).cats, key) ==
      if r.CatInfo? && key == (r.kind, r.category)
      then CatTally(TallyOf(s.cats, key).errors + r.errors, TallyOf(s.cats, key).warnings + r.warnings)
      else TallyOf(s.cats, key)
  {
  }

  // ---------------------------------------------------------------------------
  // Totals
  // ---------------------------------------------------------------------------

  function Plus(a: FileStats, b: FileStats): FileStats {
    FileStats(a.totalLines + b.totalLines, a.codeLines + b.codeLines, a.commentLines + b.commentLines,
              a.blankLines + b.blankLines, a.files + b.files)
  }

  /** The totals row: the three kinds summed, plugin, test, vendor. */
  function Totals(ks: KindStats): FileStats {
    Plus(Plus(Plus(ZeroStats, ks.plugin), ks.test), ks.vendor)
  }

  /** Lines other than blank ones; the denominator of every share. */
  function NonBlank(s: FileStats): int {
    s.totalLines - s.blankLines
  }

  /** The totals' non-blank count is the sum of the kinds' non-blank counts, and every field is a sum over the kinds. */
  lemma TotalsSum(ks: KindStats)
    ensures NonBlank(Totals(ks)) == NonBlank(ks.plugin) + NonBlank(ks.test) + NonBlank(ks.vendor)
    ensures Totals(ks).files == ks.plugin.files + ks.test.files + ks.vendor.files
    ensures Totals(ks).codeLines == ks.plugin.codeLines + ks.test.codeLines + ks.vendor.codeLines
    ensures Totals(ks).commentLines == ks.plugin.commentLines + ks.test.commentLines + ks.vendor.commentLines
    ensures Totals(ks).totalLines == ks.plugin.totalLines + ks.test.totalLines + ks.vendor.totalLines
    ensures Totals(ks).blankLines == ks.plugin.blankLines + ks.test.blankLines + ks.vendor.blankLines
  {
  }
}

=== FILE: categories.dfy ===
/**
 * The sniff-to-category tables of the report, the choice of table by the
 * active ruleset, and the first-prefix lookup that assigns a finding its
 * category.
 */
module Categories {
  import opened Wrappers
  import opened Text
  import opened Seqs

  /** One table entry: a sniff-code prefix and the category it reports under. */
  datatype Rule = Rule(prefix: string, category: string)

  /** An ordered categorization table, searched front to back. */
  type Table = seq<Rule>

  const HardErrors: string := "hard errors"
  const DangerousCode: string := "dangerous code"
  const UntestableCode: string := "untestable code"
  const OutdatedCode: string := "outdated code"
  const MessyCode: string := "messy code"
  const IncompatiblePHP: string := "incompatible code - PHP"
  const IncompatibleWP: string := "incompatible code - WP"
  const ConflictingCode: string := "potentially conflicting code"
  const InsecureCode: string := "potentially insecure code"
  const Localization: string := "localization issues"
  const BuggyCode: string := "potentially buggy code"
  const SloppyCode: string := "sloppy code"
  const DiscouragedCode: string := "discouraged code"

  /** Every category label either table uses. */
  const KnownLabels: set<string> := {
    HardErrors, DangerousCode, UntestableCode, OutdatedCode, MessyCode,
    IncompatiblePHP, IncompatibleWP, ConflictingCode, InsecureCode,
    Localization, BuggyCode, SloppyCode, DiscouragedCode
  }

  /** Categorization of the sniffs of the WP-QA-Basic ruleset. */
  const Basic: Table := [
    Rule("Generic.PHP.Syntax", HardErrors),
    Rule("Generic.Files.ByteOrderMark", HardErrors),

    Rule("Squiz.PHP.Eval", DangerousCode),
    Rule("PHPCompatibility.ParameterValues.RemovedPCREModifiers", DangerousCode),
    Rule("Generic.PHP.BacktickOperator", DangerousCode),

    Rule("Generic.Metrics.CyclomaticComplexity", UntestableCode),
    Rule("Generic.Metrics.NestingLevel", UntestableCode),

    Rule("Generic.Functions.CallTimePassByReference", OutdatedCode),
    Rule("Generic.PHP.DisallowShortOpenTag", OutdatedCode),
    Rule("Generic.PHP.DisallowAlternativePHPTags", OutdatedCode),
    Rule("Generic.PHP.ForbiddenFunctions", OutdatedCode),
    Rule("WordPress.PHP.RestrictedPHPFunctions", OutdatedCode),
    Rule("WordPress.PHP.POSIXFunctions", OutdatedCode),
    Rule("Generic.PHP.DeprecatedFunctions", OutdatedCode),

    Rule("WordPress.PHP.DontExtract", MessyCode),
    Rule("WordPress.CodeAnalysis.AssignmentInCondition", MessyCode),
    Rule("Generic.Classes.DuplicateClassName", MessyCode),
    Rule("Generic.CodeAnalysis.JumbledIncrementer", MessyCode),
    Rule("Squiz.Functions.FunctionDuplicateArgument", MessyCode),
    Rule("Generic.PHP.DiscourageGoto", MessyCode),
    Rule("Squiz.Scope.StaticThisUsage", MessyCode),

    Rule("PHPCompatibility", IncompatiblePHP),

    Rule("WordPress.WP.DeprecatedFunctions", IncompatibleWP),
    Rule("WordPress.WP.DeprecatedClasses", IncompatibleWP),
    Rule("WordPress.WP.DeprecatedParameters", IncompatibleWP),
    Rule("WordPress.WP.DeprecatedParameterValues", IncompatibleWP),

    Rule("WordPress.WP.GlobalVariablesOverrride", ConflictingCode),
    Rule("WordPress.WP.EnqueuedResources", ConflictingCode),
    Rule("WordPress.NamingConventions.PrefixAllGlobals", ConflictingCode),
    Rule("WordPress.PHP.IniSet", ConflictingCode)
  ]

  /** Categorization of the extra sniffs of the WP-QA-Strict ruleset. */
  const Strict: Table := [
    Rule("WordPress.DB.PreparedSQL", InsecureCode),
    Rule("WordPress.Security.EscapeOutput", InsecureCode),
    Rule("WordPress.Security.NonceVerification", InsecureCode),
    Rule("WordPress.Security.ValidatedSanitizedInput", InsecureCode),
    Rule("WordPress.Security.PluginMenuSlug", InsecureCode),
    Rule("WordPress.Security.SafeRedirect", InsecureCode),

    Rule("WordPress.WP.I18n", Localization),
    Rule("WordPress.CodeAnalysis.EscapedNotTranslated", Localization),

    Rule("Squiz.Scope.MethodScope", OutdatedCode),
    Rule("Squiz.Scope.MemberVarScope", OutdatedCode),
    Rule("WordPress.PHP.TypeCasts", OutdatedCode),

    Rule("WordPress.PHP.StrictComparisons", BuggyCode),
    Rule("WordPress.PHP.StrictInArray", BuggyCode),
    Rule("WordPress.DB.PreparedSQLPlaceholders", BuggyCode),
    Rule("WordPress.PHP.PregQuoteDelimiter", BuggyCode),
    Rule("WordPress.PHP.NoSilencedErrors", BuggyCode),
    Rule("WordPress.NamingConventions.ValidPostTypeSlug", BuggyCode),

    Rule("WordPress.CodeAnalysis.EmptyStatement", SloppyCode),
    Rule("Generic.CodeAnalysis.EmptyStatement", SloppyCode),
    Rule("Generic.CodeAnalysis.ForLoopWithTestFunctionCall", SloppyCode),
    Rule("Squiz.PHP.DisallowSizeFunctionsInLoops", SloppyCode),
    Rule("Generic.CodeAnalysis.UnconditionalIfStatement", SloppyCode),

    Rule("WordPress.DB.RestrictedFunctions", DiscouragedCode),
    Rule("WordPress.DB.RestrictedClasses", DiscouragedCode),
    Rule("WordPress.PHP.DevelopmentFunctions", DiscouragedCode),
    Rule("WordPress.PHP.DiscouragedPHPFunctions", DiscouragedCode),
    Rule("WordPress.WP.AlternativeFunctions", DiscouragedCode),
    Rule("WordPress.WP.DiscouragedConstants", DiscouragedCode),
    Rule("WordPress.WP.DiscouragedFunctions", DiscouragedCode),

    Rule("Squiz.Functions.GlobalFunction", OutdatedCode)
  ]

  /** The ruleset names that select a table, and the exit code of the refusal. */
  const StrictProfile: string := "WP-QA-Strict"
  const BasicProfile: string := "WP-QA-Basic"
  const ConfigErrorCode: int := 3

  /** The table defines the sniff prefix `key`. */
  predicate HasKey(t: Table, key: string) {
    exists i :: 0 <= i < |t| && t[i].prefix == key
  }

  /**
   * PHP's array union `a + b` on string-keyed arrays: the entries of `a`,
   * followed by those entries of `b` whose key `a` does not define.
   */
  function PhpUnion(a: Table, b: Table): (r: Table)
    ensures |a| <= |r| <= |a| + |b| && r[..|a|] == a
    ensures forall i :: |a| <= i < |r| ==> r[i] in b && !HasKey(a, r[i].prefix)
    ensures forall j :: 0 <= j < |b| && !HasKey(a, b[j].prefix) ==> b[j] in r
    decreases |b|
  {
    if |b| == 0 then a
    else
      var r := PhpUnion(a, b[..|b| - 1]);
      assert forall j :: 0 <= j < |b| - 1 ==> b[..|b| - 1][j] == b[j];
      if HasKey(a, b[|b| - 1].prefix) then r
      else
        assert (r + [b[|b| - 1]])[..|a|] == r[..|a|];
        r + [b[|b| - 1]]
  }

  /** The entries of `b`, in order, whose key `a` does not define. */
  function Unkeyed(a: Table, b: Table): (u: Table)
    ensures |u| <= |b|
    decreases |b|
  {
    if |b| == 0 then []
    else (if HasKey(a, b[0].prefix) then [] else [b[0]]) + Unkeyed(a, b[1..])
  }

  /** Filtering `b` and then one more entry filters `b + [x]`. */
  lemma {:induction false} UnkeyedSnoc(a: Table, b: Table, x: Rule)
    ensures Unkeyed(a, b + [x]) == Unkeyed(a, b) + (if HasKey(a, x.prefix) then [] else [x])
    decreases |b|
  {
    if |b| > 0 {
      var bx := b + [x];
      assert bx[0] == b[0] && bx[1..] == b[1..] + [x];
      UnkeyedSnoc(a, b[1..], x);
      AppendAssoc(if HasKey(a, b[0].prefix) then [] else [b[0]], Unkeyed(a, b[1..]),
                  if HasKey(a, x.prefix) then [] else [x]);
    } else {
      assert b + [x] == [x];
    }
  }

  /**
   * PHP's union keeps the entries of `a` and then the entries of `b` that
   * `a` lacks, in their order in `b`.
   */
  lemma {:induction false} PhpUnionFilter(a: Table, b: Table)
    ensures PhpUnion(a, b) == a + Unkeyed(a, b)
    decreases |b|
  {
    if |b| > 0 {
      var init, last := b[..|b| - 1], b[|b| - 1];
      PhpUnionFilter(a, init);
      InitLast(b);
      UnkeyedSnoc(a, init, last);
      AppendAssoc(a, Unkeyed(a, init), if HasKey(a, last.prefix) then [] else [last]);
    }
  }

  /** With disjoint key sets, PHP's union is plain concatenation. */
  lemma {:induction false} PhpUnionDisjoint(a: Table, b: Table)
    requires forall j :: 0 <= j < |b| ==> !HasKey(a, b[j].prefix)
    ensures PhpUnion(a, b) == a + b
    decreases |b|
  {
    if |b| > 0 {
      var init, last := b[..|b| - 1], b[|b| - 1];
      assert forall j :: 0 <= j < |init| ==> init[j] == b[j];
      PhpUnionDisjoint(a, init);
      assert !HasKey(a, last.prefix);
      assert PhpUnion(a, b) == PhpUnion(a, init) + [last];
      InitLast(b);
      AppendAssoc(a, init, [last]);
    }
  }

  /** The two tables define no common sniff prefix. */
  lemma BasicStrictDisjoint()
    ensures forall j :: 0 <= j < |Strict| ==> !HasKey(Basic, Strict[j].prefix)
  {
    StrictDisjoint0();
    StrictDisjoint5();
    StrictDisjoint10();
    StrictDisjoint15();
    StrictDisjoint20();
    StrictDisjoint25();
  }

  // The pairwise comparisons, five strict entries at a time.

  lemma StrictDisjoint0()
    ensures forall j :: 0 <= j < 5 ==> !HasKey(Basic, Strict[j].prefix)
  {
    assert forall i, j :: 0 <= i < |Basic| && 0 <= j < 5 ==> Basic[i].prefix != Strict[j].prefix;
  }

  lemma StrictDisjoint5()
    ensures forall j :: 5 <= j < 10 ==> !HasKey(Basic, Strict[j].prefix)
  {
    assert forall i, j :: 0 <= i < |Basic| && 5 <= j < 10 ==> Basic[i].prefix != Strict[j].prefix;
  }

  lemma StrictDisjoint10()
    ensures forall j :: 10 <= j < 15 ==> !HasKey(Basic, Strict[j].prefix)
  {
    assert forall i, j :: 0 <= i < |Basic| && 10 <= j < 15 ==> Basic[i].prefix != Strict[j].prefix;
  }

  lemma StrictDisjoint15()
    ensures forall j :: 15 <= j < 20 ==> !HasKey(Basic, Strict[j].prefix)
  {
    assert forall i, j :: 0 <= i < |Basic| && 15 <= j < 20 ==> Basic[i].prefix != Strict[j].prefix;
  }

  lemma StrictDisjoint20()
    ensures forall j :: 20 <= j < 25 ==> !HasKey(Basic, Strict[j].prefix)
  {
    assert forall i, j :: 0 <= i < |Basic| && 20 <= j < 25 ==> Basic[i].prefix != Strict[j].prefix;
  }

  lemma StrictDisjoint25()
    ensures forall j :: 25 <= j < 30 ==> !HasKey(Basic, Strict[j].prefix)
  {
    assert forall i, j :: 0 <= i < |Basic| && 25 <= j < 30 ==> Basic[i].prefix != Strict[j].prefix;
  }

  /** The table the WP-QA-Strict ruleset uses: basic entries, then strict ones. */
  lemma {:induction false} StrictTableIsConcatenation()
    ensures PhpUnion(Basic, Strict) == Basic + Strict
  {
    BasicStrictDisjoint();
    PhpUnionDisjoint(Basic, Strict);
  }

  /**
   * Sets the categorization the first time it is needed: a table already in
   * use is kept; otherwise WP-QA-Strict selects basic + strict, WP-QA-Basic
   * selects basic, and any other run is refused with exit code 3.
   */
  function SelectTable(current: Table, standards: seq<string>): (r: Result<Table, int>)
    ensures |current| > 0 ==> r == Success(current)
    ensures |current| == 0 && StrictProfile in standards ==> r == Success(Basic + Strict)
    ensures |current| == 0 && StrictProfile !in standards && BasicProfile in standards ==> r == Success(Basic)
    ensures r.Failure? <==> |current| == 0 && StrictProfile !in standards && BasicProfile !in standards
    ensures r.Failure? ==> r.error == ConfigErrorCode
    ensures r.Success? ==> |r.value| > 0
  {
    if |current| > 0 then Success(current)
    else if StrictProfile in standards then
      StrictTableIsConcatenation();
      Success(PhpUnion(Basic, Strict))
    else if BasicProfile in standards then Success(Basic)
    else Failure(ConfigErrorCode)
  }

  /** `prefix` of entry `i` is a literal prefix of `source`. */
  predicate EntryMatches(t: Table, i: int, source: string) {
    0 <= i < |t| && IsPrefix(t[i].prefix, source)
  }

  /** The position of the first entry, in table order, whose prefix starts `source`. */
  function ResolveIndex(t: Table, source: string): (r: Option<nat>)
    ensures r.Some? ==> EntryMatches(t, r.value, source)
    ensures r.Some? ==> forall j :: 0 <= j < r.value ==> !EntryMatches(t, j, source)
    ensures r.None? <==> forall j :: 0 <= j < |t| ==> !EntryMatches(t, j, source)
    decreases |t|
  {
    if |t| == 0 then None
    else if IsPrefix(t[0].prefix, source) then (assert EntryMatches(t, 0, source); Some(0))
    else
      var rest := ResolveIndex(t[1..], source);
      assert forall j :: 1 <= j < |t| ==> (EntryMatches(t, j, source) <==> EntryMatches(t[1..], j - 1, source));
      match rest
      case None => None
      case Some(k) => assert EntryMatches(t, k + 1, source); Some(k + 1)
  }

  /**
   * The category of a finding's sniff code: the label of the first entry
   * whose prefix the code starts with, and none when no prefix matches.
   */
  function Resolve(t: Table, source: string): (r: Option<string>)
    ensures r.None? <==> forall j :: 0 <= j < |t| ==> !EntryMatches(t, j, source)
    ensures r.Some? ==> exists i :: 0 <= i < |t| && EntryMatches(t, i, source) && r.value == t[i].category
                                    && forall j :: 0 <= j < i ==> !EntryMatches(t, j, source)
  {
    match ResolveIndex(t, source)
    case None => None
    case Some(i) => Some(t[i].category)
  }

  /** The first match is the only candidate: any entry that matches first is the one resolved. */
  lemma ResolveFirstMatch(t: Table, source: string, i: nat)
    requires EntryMatches(t, i, source)
    requires forall j :: 0 <= j < i ==> !EntryMatches(t, j, source)
    ensures ResolveIndex(t, source) == Some(i)
    ensures Resolve(t, source) == Some(t[i].category)
  {
    var r := ResolveIndex(t, source);
    assert r.Some?;
    assert !(r.value < i);
  }

  /**
   * An entry preceded by an entry whose prefix is a prefix of its own can
   * never be the resolved entry.
   */
  lemma ShadowedEntryUnreachable(t: Table, i: nat, j: nat, source: string)
    requires i < j < |t| && IsPrefix(t[i].prefix, t[j].prefix)
    ensures ResolveIndex(t, source) != Some(j)
  {
    if EntryMatches(t, j, source) {
      assert source[..|t[i].prefix|] == t[j].prefix[..|t[i].prefix|];
      assert EntryMatches(t, i, source);
    }
  }

  /**
   * In the union table, 'WordPress.DB.PreparedSQL' (position 30) shadows
   * 'WordPress.DB.PreparedSQLPlaceholders' (position 43): no sniff code
   * resolves to the latter.
   */
  lemma PlaceholdersShadowed(source: string)
    ensures (Basic + Strict)[43].prefix == "WordPress.DB.PreparedSQLPlaceholders"
    ensures ResolveIndex(Basic + Strict, source) != Some(43)
  {
    var t := Basic + Strict;
    assert t[30].prefix == "WordPress.DB.PreparedSQL";
    assert IsPrefix(t[30].prefix, t[43].prefix);
    ShadowedEntryUnreachable(t, 30, 43, source);
  }

  lemma PrefixOfConcat(p: string, q: string)
    ensures IsPrefix(p, p + q)
  {
    assert (p + q)[..|p|] == p;
  }

  lemma DifferAtNotPrefix(p: string, s: string, k: nat)
    requires k < |p| && k < |s| && p[k] != s[k]
    ensures !IsPrefix(p, s)
  {
    if |p| <= |s| {
      assert s[..|p|][k] == s[k];
    }
  }

  /**
   * Every basic prefix differs from "WordPress.DB." in its first or its
   * eleventh character.
   */
  lemma BasicAvoidsWordPressDB()
    ensures forall j :: 0 <= j < |Basic| ==> |Basic[j].prefix| > 10 && (Basic[j].prefix[0] != 'W' || Basic[j].prefix[10] != 'D')
  {
    BasicAvoids0();
    BasicAvoids10();
    BasicAvoids20();
  }

  // The same, ten basic entries at a time.

  lemma BasicAvoids0()
    ensures forall j :: 0 <= j < 10 ==> |Basic[j].prefix| > 10 && (Basic[j].prefix[0] != 'W' || Basic[j].prefix[10] != 'D')
  {
  }

  lemma BasicAvoids10()
    ensures forall j :: 10 <= j < 20 ==> |Basic[j].prefix| > 10 && (Basic[j].prefix[0] != 'W' || Basic[j].prefix[10] != 'D')
  {
  }

  lemma BasicAvoids20()
    ensures forall j :: 20 <= j < 30 ==> |Basic[j].prefix| > 10 && (Basic[j].prefix[0] != 'W' || Basic[j].prefix[10] != 'D')
  {
  }

  /**
   * Every PreparedSQLPlaceholders finding is reported as potentially
   * insecure code, never as potentially buggy code.
   */
  lemma PlaceholdersResolveToInsecure(rest: string)
    ensures Resolve(Basic + Strict, "WordPress.DB.PreparedSQLPlaceholders" + rest) == Some(InsecureCode)
  {
    var t := Basic + Strict;
    var p := "WordPress.DB.PreparedSQL";
    var q := "Placeholders" + rest;
    var source := "WordPress.DB.PreparedSQLPlaceholders" + rest;
    assert source == p + q;
    assert source[0] == 'W' && source[10] == 'D';
    assert t[30] == Strict[0];
    PrefixOfConcat(p, q);
    BasicAvoidsWordPressDB();
    forall j | 0 <= j < 30
      ensures !EntryMatches(t, j, source)
    {
      assert t[j] == Basic[j];
      if Basic[j].prefix[0] != 'W' {
        DifferAtNotPrefix(t[j].prefix, source, 0);
      } else {
        DifferAtNotPrefix(t[j].prefix, source, 10);
      }
    }
    ResolveFirstMatch(t, source, 30);
  }

  /** Every label of the union table is one of the known categories. */
  lemma LabelsKnown()
    ensures forall i :: 0 <= i < |Basic + Strict| ==> (Basic + Strict)[i].category in KnownLabels
  {
  }
}

=== FILE: filekinds.dfy ===
/** The file type a report row is filed under, derived from the file's path. */
module FileKinds {
  import opened Wrappers
  import opened Text

  datatype FileKind = Plugin | Test | Vendor

  /** The name the intermediate records use for a kind. */
  function KindName(k: FileKind): string {
    match k
    case Plugin => "plugin"
    case Test => "test"
    case Vendor => "vendor"
  }

  /** Reads a kind name back. */
  function ParseKind(s: string): (r: Option<FileKind>)
    ensures r.Some? ==> KindName(r.value) == s
  {
    if s == "plugin" then Some(Plugin)
    else if s == "test" then Some(Test)
    else if s == "vendor" then Some(Vendor)
    else None
  }

  /** Reading a kind name gives the kind back. */
  lemma ParseKindName(k: FileKind)
    ensures ParseKind(KindName(k)) == Some(k)
  {
    assert "plugin" != "test" && "plugin" != "vendor" && "test" != "vendor" by {
      assert "plugin"[0] != "test"[0] && "plugin"[0] != "vendor"[0] && "test"[0] != "vendor"[0];
    }
  }

  /** A kind name contains neither '>' nor a line break. */
  lemma KindNameClean(k: FileKind)
    ensures Avoids(KindName(k), '>') && Avoids(KindName(k), '\n')
  {
  }

  /** `name` between two directory separators. */
  function Segment(sep: char, name: string): string {
    [sep] + name + [sep]
  }

  /** The path contains `name` as a whole directory, ignoring case. */
  ghost predicate HasDir(path: string, sep: char, name: string) {
    exists i :: MatchesAt(path, Segment(sep, name), i)
  }

  /**
   * The kind of a file: a `vendor` directory anywhere in the path makes it
   * vendor code, otherwise a `test` or `tests` directory makes it test code,
   * otherwise it is plugin code. Directory separators are required on both
   * sides, and letters match regardless of case.
   */
  function ClassifyPath(path: string, sep: char): (k: FileKind)
    ensures k == Vendor <==> HasDir(path, sep, "vendor")
    ensures k == Test <==> !HasDir(path, sep, "vendor") && (HasDir(path, sep, "test") || HasDir(path, sep, "tests"))
    ensures k == Plugin <==> !HasDir(path, sep, "vendor") && !HasDir(path, sep, "test") && !HasDir(path, sep, "tests")
  {
    if ContainsCI(path, Segment(sep, "vendor")) then Vendor
    else if ContainsCI(path, Segment(sep, "test")) then Test
    else if ContainsCI(path, Segment(sep, "tests")) then Test
    else Plugin
  }

  lemma LowerConcat(a: string, b: string)
    ensures Lower(a + b) == Lower(a) + Lower(b)
  {
  }

  /** A separator that is not a letter is unaffected by lower-casing. */
  predicate PlainSep(sep: char) {
    !('A' <= sep <= 'Z') && !('a' <= sep <= 'z')
  }

  /** Spelling `dir` in any case, between two separators, puts it in the path. */
  lemma DirInPath(pre: string, dir: string, post: string, sep: char, name: string)
    requires Lower(dir) == Lower(name)
    ensures HasDir(pre + [sep] + dir + [sep] + post, sep, name)
  {
    var path := pre + [sep] + dir + [sep] + post;
    var i := |pre|;
    assert path[i..i + |Segment(sep, name)|] == [sep] + dir + [sep];
    LowerConcat([sep] + dir, [sep]);
    LowerConcat([sep], dir);
    LowerConcat([sep] + name, [sep]);
    LowerConcat([sep], name);
    assert MatchesAt(path, Segment(sep, name), i);
  }

  /** A match sits between two separators. */
  lemma MatchNeedsSeps(path: string, sep: char, name: string, i: int)
    requires PlainSep(sep) && MatchesAt(path, Segment(sep, name), i)
    ensures path[i] == sep && path[i + |name| + 1] == sep
  {
    var n := |name| + 2;
    var lowered := Lower(path[i..i + n]);
    assert lowered == Lower(Segment(sep, name));
    assert lowered[0] == LowerChar(path[i]);
    assert lowered[n - 1] == LowerChar(path[i + n - 1]);
    assert Lower(Segment(sep, name))[0] == LowerChar(sep) == sep;
    assert Lower(Segment(sep, name))[n - 1] == LowerChar(sep) == sep;
  }

  /** A `vendor` directory wins over any `test` or `tests` directory, in any letter case. */
  lemma VendorTakesPriority(pre: string, dir: string, post: string, sep: char)
    requires Lower(dir) == "vendor"
    ensures ClassifyPath(pre + [sep] + dir + [sep] + post, sep) == Vendor
  {
    DirInPath(pre, dir, post, sep, "vendor");
  }

  /** Separator positions in a path. */
  ghost predicate SepsOnlyAt(path: string, sep: char, at: set<int>) {
    forall k :: 0 <= k < |path| && path[k] == sep ==> k in at
  }

  /** No directory of `name` when no two separators lie |name| + 1 apart. */
  lemma NoDirBetweenSeps(path: string, sep: char, name: string, at: set<int>)
    requires PlainSep(sep) && SepsOnlyAt(path, sep, at)
    requires forall a, b :: a in at && b in at ==> b != a + |name| + 1
    ensures !HasDir(path, sep, name)
  {
    if HasDir(path, sep, name) {
      var i :| MatchesAt(path, Segment(sep, name), i);
      MatchNeedsSeps(path, sep, name, i);
      assert false;
    }
  }

  /** A directory named `testing` is not a test directory. */
  lemma TestingIsNotTest()
    ensures ClassifyPath("/project/testing/x.php", '/') == Plugin
  {
    var path := "/project/testing/x.php";
    assert SepsOnlyAt(path, '/', {0, 8, 16});
    NoDirBetweenSeps(path, '/', "vendor", {0, 8, 16});
    NoDirBetweenSeps(path, '/', "test", {0, 8, 16});
    NoDirBetweenSeps(path, '/', "tests", {0, 8, 16});
  }

  /** A trailing `test` without a closing separator is not a test directory. */
  lemma TrailingTestIsNotTest()
    ensures ClassifyPath("/project/test", '/') == Plugin
  {
    var path := "/project/test";
    assert SepsOnlyAt(path, '/', {0, 8});
    NoDirBetweenSeps(path, '/', "vendor", {0, 8});
    NoDirBetweenSeps(path, '/', "test", {0, 8});
    NoDirBetweenSeps(path, '/', "tests", {0, 8});
  }

  /** A `tests` directory makes a test file. */
  lemma TestsDirIsTest()
    ensures ClassifyPath("/project/tests/x.php", '/') == Test
  {
    var path := "/project/tests/x.php";
    assert path == "/project" + ['/'] + "tests" + ['/'] + "x.php";
    DirInPath("/project", "tests", "x.php", '/', "tests");
    assert SepsOnlyAt(path, '/', {0, 8, 14});
    NoDirBetweenSeps(path, '/', "vendor", {0, 8, 14});
  }

  /** A file outside vendor and test directories is plugin code. */
  lemma SourceDirIsPlugin()
    ensures ClassifyPath("/project/src/x.php", '/') == Plugin
  {
    var path := "/project/src/x.php";
    assert SepsOnlyAt(path, '/', {0, 8, 12});
    NoDirBetweenSeps(path, '/', "vendor", {0, 8, 12});
    NoDirBetweenSeps(path, '/', "test", {0, 8, 12});
    NoDirBetweenSeps(path, '/', "tests", {0, 8, 12});
  }
}

=== FILE: linecount.dfy ===
/**
 * The lines-of-code statistics of one file: a walk over the file's tokens
 * that files each line as code, comment or blank when the next line begins.
 */
module LineCount {
  import opened Seqs

  /** What the walk distinguishes: whitespace, the other "empty" tokens (comments), and code. */
  datatype TokenKind = Whitespace | Comment | Code

  /** Token line numbers start at 1. */
  type LineNo = n: int | n >= 1 witness 1

  datatype Token = Token(line: LineNo, kind: TokenKind)

  /** The loop variables of the walk. */
  datatype WalkState = WalkState(lastLine: int, hasCode: bool, hasComment: bool, code: nat, comment: nat, blank: nat)

  /** The walk starts on line 0, which no token is on. */
  const Start: WalkState := WalkState(0, false, false, 0, 0, 0)

  /**
   * The start of a new line: the previous line is filed as code if it held
   * code, else as comment if it held a comment, else as blank, and the
   * flags are cleared.
   */
  function Advance(st: WalkState, line: int): WalkState {
    WalkState(line, false, false,
              st.code + (if st.hasCode then 1 else 0),
              st.comment + (if !st.hasCode && st.hasComment then 1 else 0),
              st.blank + (if !st.hasCode && !st.hasComment then 1 else 0))
  }

  /** A token flags its line: whitespace never, a comment-like token as comment, any other as code. */
  function Mark(st: WalkState, k: TokenKind): WalkState {
    match k
    case Whitespace => st
    case Code => st.(hasCode := true)
    case Comment => st.(hasComment := true)
  }

  /** One iteration of the loop over the tokens. */
  function Step(st: WalkState, t: Token): WalkState {
    Mark(if t.line != st.lastLine then Advance(st, t.line) else st, t.kind)
  }

  /** The loop variables after the walk has seen `toks`. */
  function Walk(toks: seq<Token>): WalkState
    decreases |toks|
  {
    if |toks| == 0 then Start else Step(Walk(toks[..|toks| - 1]), toks[|toks| - 1])
  }

  /** The statistics one file contributes. */
  datatype LineCounts = LineCounts(totalLines: nat, code: nat, comment: nat, blank: nat)

  /**
   * The statistics of a file: the total is the last token's line. For an
   * ordered token sequence the walk counts each line by what is on it: code
   * lines, comment-only lines, and whitespace-only lines other than the
   * last, plus one blank line for the line 0 the walk starts on; so the
   * blank count never exceeds the total.
   */
  function CountLines(toks: seq<Token>): (c: LineCounts)
    requires |toks| > 0
    ensures c.totalLines == toks[|toks| - 1].line
    ensures Ordered(toks) ==> c.code == |CodeLines(toks)| && c.comment == |CommentLines(toks)|
    ensures Ordered(toks) ==> c.blank == 1 + |BlankLines(toks) - {c.totalLines}|
    ensures Ordered(toks) ==> c.blank <= c.totalLines
  {
    var st := Walk(toks);
    var c := LineCounts(toks[|toks| - 1].line,
                        st.code + (if st.hasCode then 1 else 0),
                        st.comment + (if !st.hasCode && st.hasComment then 1 else 0),
                        st.blank);
    if Ordered(toks) then WalkCounts(toks); c else c
  }

  // ---------------------------------------------------------------------------
  // Reference definition: the lines, by what is on them
  // ---------------------------------------------------------------------------

  /** Token lines never decrease, as in a tokenized file. */
  predicate Ordered(toks: seq<Token>) {
    forall i, j :: 0 <= i < j < |toks| ==> toks[i].line <= toks[j].line
  }

  /** The lines some token is on. */
  function Lines(toks: seq<Token>): set<int>
    decreases |toks|
  {
    if |toks| == 0 then {} else Lines(toks[..|toks| - 1]) + {toks[|toks| - 1].line}
  }

  /** The lines some token of kind `k` is on. */
  function LinesWith(toks: seq<Token>, k: TokenKind): set<int>
    decreases |toks|
  {
    if |toks| == 0 then {}
    else LinesWith(toks[..|toks| - 1], k) + (if toks[|toks| - 1].kind == k then {toks[|toks| - 1].line} else {})
  }

  /** Lines holding code. */
  function CodeLines(toks: seq<Token>): set<int> {
    LinesWith(toks, Code)
  }

  /** Lines holding a comment but no code. */
  function CommentLines(toks: seq<Token>): set<int> {
    LinesWith(toks, Comment) - LinesWith(toks, Code)
  }

  /** Lines holding nothing but whitespace. */
  function BlankLines(toks: seq<Token>): set<int> {
    Lines(toks) - LinesWith(toks, Code) - LinesWith(toks, Comment)
  }

  lemma LinesAppend(p: seq<Token>, t: Token)
    ensures Lines(p + [t]) == Lines(p) + {t.line}
    ensures LinesWith(p + [t], Code) == LinesWith(p, Code) + (if t.kind == Code then {t.line} else {})
    ensures LinesWith(p + [t], Comment) == LinesWith(p, Comment) + (if t.kind == Comment then {t.line} else {})
  {
    assert (p + [t])[..|p|] == p;
  }

  lemma {:induction false} LinesBounded(p: seq<Token>)
    requires |p| > 0 && Ordered(p)
    ensures forall x :: x in Lines(p) ==> x <= p[|p| - 1].line
    ensures forall k :: LinesWith(p, k) <= Lines(p)
    decreases |p|
  {
    var init := p[..|p| - 1];
    if |init| > 0 {
      assert Ordered(init);
      LinesBounded(init);
    }
  }

  lemma {:induction false} LinesWithin(p: seq<Token>)
    ensures forall k :: LinesWith(p, k) <= Lines(p)
    decreases |p|
  {
    if |p| > 0 {
      LinesWithin(p[..|p| - 1]);
    }
  }

  /**
   * What the loop variables mean. `code`, `comment` and `all` are the lines
   * holding code, holding a comment, and holding any token; `fc`, `fm` and
   * `fb` are the lines already filed as code, comment and blank. Every line
   * other than the current one has been filed by what is on it, the current
   * line is pending with its flags, and one more blank line was filed for
   * the line 0 the walk starts on.
   */
  ghost predicate Meaning(st: WalkState, code: set<int>, comment: set<int>, all: set<int>,
                          fc: set<int>, fm: set<int>, fb: set<int>) {
    && (st.hasCode <==> st.lastLine in code)
    && (st.hasComment <==> st.lastLine in comment)
    && st.code == |fc| && st.comment == |fm| && st.blank == 1 + |fb|
    && Filing(st.lastLine, code, comment, all, fc, fm, fb)
  }

  /** The filed lines are the lines other than `cur`, by what is on them. */
  ghost predicate Filing(cur: int, code: set<int>, comment: set<int>, all: set<int>,
                         fc: set<int>, fm: set<int>, fb: set<int>) {
    && fc == code - {cur}
    && fm == comment - code - {cur}
    && fb == all - code - comment - {cur}
  }

  /** Flagging the current line does not change which lines are filed. */
  lemma MarkFiling(x: int, k: TokenKind, code: set<int>, comment: set<int>, all: set<int>,
                   fc: set<int>, fm: set<int>, fb: set<int>)
    requires Filing(x, code, comment, all, fc, fm, fb)
    ensures Filing(x, code + (if k == Code then {x} else {}), comment + (if k == Comment then {x} else {}),
                   all, fc, fm, fb)
  {
  }

  /** Moving to a fresh line files the current one under exactly one kind. */
  lemma AdvanceFiling(cur: int, y: int, code: set<int>, comment: set<int>, all: set<int>,
                      fc: set<int>, fm: set<int>, fb: set<int>)
    requires Filing(cur, code, comment, all, fc, fm, fb)
    requires y !in all && cur in all && code <= all && comment <= all
    ensures Filing(y, code, comment, all + {y},
                   fc + (if cur in code then {cur} else {}),
                   fm + (if cur in comment && cur !in code then {cur} else {}),
                   fb + (if cur !in code && cur !in comment then {cur} else {}))
  {
  }

  /** Removing an element that is present shrinks a set by one. */
  lemma CardRemove(a: set<int>, x: int)
    ensures |a| == |a - {x}| + (if x in a then 1 else 0)
  {
    if x in a {
      assert a == (a - {x}) + {x};
    } else {
      assert a - {x} == a;
    }
  }

  /** Adding an element that is absent grows a set by one. */
  lemma CardFile(a: set<int>, x: int, b: bool)
    requires x !in a
    ensures |a + (if b then {x} else {})| == |a| + (if b then 1 else 0)
  {
  }

  /** A token flags its line and leaves the filed lines alone. */
  lemma MarkMeans(st: WalkState, k: TokenKind, code: set<int>, comment: set<int>, all: set<int>,
                  fc: set<int>, fm: set<int>, fb: set<int>)
    requires Meaning(st, code, comment, all, fc, fm, fb)
    ensures Meaning(Mark(st, k), code + (if k == Code then {st.lastLine} else {}),
                    comment + (if k == Comment then {st.lastLine} else {}), all, fc, fm, fb)
  {
    MarkFiling(st.lastLine, k, code, comment, all, fc, fm, fb);
  }

  /**
   * A fresh line files the pending line under exactly one kind: code if it
   * holds code, else comment if it holds a comment, else blank.
   */
  lemma AdvanceMeans(st: WalkState, y: int, code: set<int>, comment: set<int>, all: set<int>,
                     fc: set<int>, fm: set<int>, fb: set<int>)
    returns (fc': set<int>, fm': set<int>, fb': set<int>)
    requires Meaning(st, code, comment, all, fc, fm, fb)
    requires st.lastLine in all && code <= all && comment <= all && y !in all
    ensures Meaning(Advance(st, y), code, comment, all + {y}, fc', fm', fb')
  {
    var cur := st.lastLine;
    fc' := fc + (if st.hasCode then {cur} else {});
    fm' := fm + (if !st.hasCode && st.hasComment then {cur} else {});
    fb' := fb + (if !st.hasCode && !st.hasComment then {cur} else {});
    CardFile(fc, cur, st.hasCode);
    CardFile(fm, cur, !st.hasCode && st.hasComment);
    CardFile(fb, cur, !st.hasCode && !st.hasComment);
    AdvanceFiling(cur, y, code, comment, all, fc, fm, fb);
  }

  /** A line beyond the last token's line holds no token yet. */
  lemma FreshLine(init: seq<Token>, y: int)
    requires |init| > 0 && Ordered(init) && init[|init| - 1].line < y
    ensures y !in Lines(init)
    ensures init[|init| - 1].line in Lines(init)
    ensures LinesWith(init, Code) <= Lines(init) && LinesWith(init, Comment) <= Lines(init)
  {
    LinesBounded(init);
    assert init == init[..|init| - 1] + [init[|init| - 1]];
    LinesAppend(init[..|init| - 1], init[|init| - 1]);
  }

  /** One step of the walk keeps `Meaning` when the token is on the current line or on a fresh one. */
  lemma StepMeans(st: WalkState, t: Token, code: set<int>, comment: set<int>, all: set<int>,
                  fc0: set<int>, fm0: set<int>, fb0: set<int>,
                  next: WalkState, code': set<int>, comment': set<int>, all': set<int>)
    returns (fc: set<int>, fm: set<int>, fb: set<int>)
    requires Meaning(st, code, comment, all, fc0, fm0, fb0)
    requires st.lastLine in all && code <= all && comment <= all
    requires t.line == st.lastLine || t.line !in all
    requires next == Step(st, t) && all' == all + {t.line}
    requires code' == code + (if t.kind == Code then {t.line} else {})
    requires comment' == comment + (if t.kind == Comment then {t.line} else {})
    ensures next.lastLine == t.line
    ensures Meaning(next, code', comment', all', fc, fm, fb)
  {
    if t.line == st.lastLine {
      SameLineMeans(st, t, code, comment, all, fc0, fm0, fb0);
      fc, fm, fb := fc0, fm0, fb0;
    } else {
      fc, fm, fb := NewLineMeans(st, t, code, comment, all, fc0, fm0, fb0);
    }
  }

  /** A token on a fresh line files the current line, then flags the fresh one. */
  lemma NewLineMeans(st: WalkState, t: Token, code: set<int>, comment: set<int>, all: set<int>,
                     fc0: set<int>, fm0: set<int>, fb0: set<int>)
    returns (fc: set<int>, fm: set<int>, fb: set<int>)
    requires Meaning(st, code, comment, all, fc0, fm0, fb0)
    requires st.lastLine in all && code <= all && comment <= all && t.line !in all
    ensures Meaning(Step(st, t), code + (if t.kind == Code then {t.line} else {}),
                    comment + (if t.kind == Comment then {t.line} else {}), all + {t.line}, fc, fm, fb)
  {
    assert Step(st, t) == Mark(Advance(st, t.line), t.kind);
    fc, fm, fb := AdvanceMeans(st, t.line, code, comment, all, fc0, fm0, fb0);
    MarkMeans(Advance(st, t.line), t.kind, code, comment, all + {t.line}, fc, fm, fb);
  }

  /** A token on the current line only flags it. */
  lemma SameLineMeans(st: WalkState, t: Token, code: set<int>, comment: set<int>, all: set<int>,
                      fc: set<int>, fm: set<int>, fb: set<int>)
    requires Meaning(st, code, comment, all, fc, fm, fb)
    requires st.lastLine in all && t.line == st.lastLine
    ensures Meaning(Step(st, t), code + (if t.kind == Code then {t.line} else {}),
                    comment + (if t.kind == Comment then {t.line} else {}), all + {t.line}, fc, fm, fb)
  {
    assert all + {t.line} == all;
    assert Step(st, t) == Mark(st, t.kind);
    MarkMeans(st, t.kind, code, comment, all, fc, fm, fb);
  }

  /** The first token files line 0 as blank and flags its own line. */
  lemma WalkFirstMeans(p: seq<Token>)
    requires |p| == 1
    ensures Walk(p).lastLine == p[0].line
    ensures Meaning(Walk(p), LinesWith(p, Code), LinesWith(p, Comment), Lines(p), {}, {}, {})
  {
    var t := p[0];
    assert Walk(p[..0]) == Start;
    var st := Advance(Start, t.line);
    assert Meaning(st, {}, {}, {t.line}, {}, {}, {});
    MarkMeans(st, t.kind, {}, {}, {t.line}, {}, {}, {});
  }

  /** Each later token of an ordered sequence keeps `Meaning`. */
  lemma WalkNextMeans(p: seq<Token>, fc0: set<int>, fm0: set<int>, fb0: set<int>)
    returns (fc: set<int>, fm: set<int>, fb: set<int>)
    requires |p| > 1 && Ordered(p)
    requires Walk(p[..|p| - 1]).lastLine == p[|p| - 2].line
    requires Meaning(Walk(p[..|p| - 1]), LinesWith(p[..|p| - 1], Code), LinesWith(p[..|p| - 1], Comment),
                     Lines(p[..|p| - 1]), fc0, fm0, fb0)
    ensures Walk(p).lastLine == p[|p| - 1].line
    ensures Meaning(Walk(p), LinesWith(p, Code), LinesWith(p, Comment), Lines(p), fc, fm, fb)
  {
    var t, init := p[|p| - 1], p[..|p| - 1];
    assert Ordered(init);
    FreshLine(init, init[|init| - 1].line + 1);
    if t.line != init[|init| - 1].line {
      FreshLine(init, t.line);
    }
    InitLast(p);
    LinesAppend(init, t);
    fc, fm, fb := StepMeans(Walk(init), t, LinesWith(init, Code), LinesWith(init, Comment), Lines(init),
                            fc0, fm0, fb0, Walk(p), LinesWith(p, Code), LinesWith(p, Comment), Lines(p));
  }

  /**
   * The walk over an ordered token sequence keeps `Meaning` for the lines
   * of the tokens seen; the returned sets are the lines filed so far.
   */
  lemma {:induction false} WalkMeans(p: seq<Token>) returns (fc: set<int>, fm: set<int>, fb: set<int>)
    requires |p| > 0 && Ordered(p)
    ensures Walk(p).lastLine == p[|p| - 1].line
    ensures Meaning(Walk(p), LinesWith(p, Code), LinesWith(p, Comment), Lines(p), fc, fm, fb)
    decreases |p|
  {
    if |p| == 1 {
      WalkFirstMeans(p);
      fc, fm, fb := {}, {}, {};
    } else {
      var init := p[..|p| - 1];
      assert Ordered(init);
      var fc0, fm0, fb0 := WalkMeans(init);
      fc, fm, fb := WalkNextMeans(p, fc0, fm0, fb0);
    }
  }

  /** The three kinds of line partition the lines some token is on. */
  lemma Partition(toks: seq<Token>)
    ensures |Lines(toks)| == |CodeLines(toks)| + |CommentLines(toks)| + |BlankLines(toks)|
  {
    var all, code, comment := Lines(toks), LinesWith(toks, Code), LinesWith(toks, Comment);
    LinesWithin(toks);
    var nonBlank := code + (comment - code);
    assert all == nonBlank + BlankLines(toks);
    assert nonBlank * BlankLines(toks) == {};
    assert code * (comment - code) == {};
  }

  /** The walk's counters, with the pending line filed, are the counts of the reference sets. */
  lemma WalkCounts(toks: seq<Token>)
    requires |toks| > 0 && Ordered(toks)
    ensures var st := Walk(toks);
      && st.code + (if st.hasCode then 1 else 0) == |CodeLines(toks)|
      && st.comment + (if !st.hasCode && st.hasComment then 1 else 0) == |CommentLines(toks)|
      && st.blank == 1 + |BlankLines(toks) - {toks[|toks| - 1].line}|
      && st.blank <= toks[|toks| - 1].line
  {
    var fc, fm, fb := WalkMeans(toks);
    Settle(Walk(toks), LinesWith(toks, Code), LinesWith(toks, Comment), Lines(toks), fc, fm, fb);
    WalkBounded(toks);
  }

  /** Filing the pending line completes the counts of code and comment lines. */
  lemma Settle(st: WalkState, code: set<int>, comment: set<int>, all: set<int>,
               fc: set<int>, fm: set<int>, fb: set<int>)
    requires Meaning(st, code, comment, all, fc, fm, fb)
    ensures st.code + (if st.hasCode then 1 else 0) == |code|
    ensures st.comment + (if !st.hasCode && st.hasComment then 1 else 0) == |comment - code|
    ensures st.blank == 1 + |all - code - comment - {st.lastLine}|
  {
    CardRemove(code, st.lastLine);
    CardRemove(comment - code, st.lastLine);
  }

  /** The last line has something other than whitespace on it. */
  predicate LastLineFilled(toks: seq<Token>)
    requires |toks| > 0
  {
    toks[|toks| - 1].line !in BlankLines(toks)
  }

  /**
   * The three counts add up to the number of distinct lines, plus one when
   * the last line is not blank: the phantom line 0 is counted as blank and a
   * blank last line is never counted.
   */
  lemma {:induction false} CountsSum(toks: seq<Token>)
    requires |toks| > 0 && Ordered(toks)
    ensures var c := CountLines(toks);
      c.code + c.comment + c.blank == |Lines(toks)| + (if LastLineFilled(toks) then 1 else 0)
  {
    Partition(toks);
    CardRemove(BlankLines(toks), toks[|toks| - 1].line);
  }

  /** Each line change files exactly one line, and lines only go up. */
  lemma {:induction false} WalkBounded(p: seq<Token>)
    requires Ordered(p)
    ensures var st := Walk(p); st.code + st.comment + st.blank <= st.lastLine
    ensures |p| > 0 ==> Walk(p).lastLine == p[|p| - 1].line
    decreases |p|
  {
    if |p| > 0 {
      var init := p[..|p| - 1];
      assert Ordered(init);
      WalkBounded(init);
      if |init| > 0 {
        assert init[|init| - 1].line <= p[|p| - 1].line;
      }
    }
  }

  /** A whitespace token on the current last line changes no statistic. */
  lemma TrailingWhitespaceNeutral(toks: seq<Token>, t: Token)
    requires |toks| > 0 && t.kind == Whitespace && t.line == toks[|toks| - 1].line
    ensures CountLines(toks + [t]) == CountLines(toks)
  {
    var q := toks + [t];
    assert q[..|q| - 1] == toks;
    WalkLast(toks);
  }

  lemma WalkLast(toks: seq<Token>)
    requires |toks| > 0
    ensures Walk(toks).lastLine == toks[|toks| - 1].line
  {
  }

  /**
   * The loop of the report, over the token array: the counters it prints
   * are the recursive walk's, and for an ordered token sequence they mean
   * what `CountLines` says.
   */
  method ClassifyLines(toks: seq<Token>) returns (counts: LineCounts)
    requires |toks| > 0
    ensures counts == CountLines(toks)
    ensures Ordered(toks) ==> counts.code == |CodeLines(toks)| && counts.comment == |CommentLines(toks)|
    ensures Ordered(toks) ==> counts.blank == 1 + |BlankLines(toks) - {counts.totalLines}|
    ensures Ordered(toks) ==> counts.blank <= counts.totalLines
  {
    var lastLine: int, hasCode, hasComment := 0, false, false;
    var code, comment, blank := 0, 0, 0;
    var i := 0;
    while i < |toks|
      invariant 0 <= i <= |toks|
      invariant WalkState(lastLine, hasCode, hasComment, code, comment, blank) == Walk(toks[..i])
    {
      var t := toks[i];
      if t.line != lastLine {
        if hasCode {
          code := code + 1;
        } else if hasComment {
          comment := comment + 1;
        } else {
          blank := blank + 1;
        }
        hasCode, hasComment := false, false;
        lastLine := t.line;
      }
      if t.kind == Code {
        hasCode := true;
      } else if t.kind == Comment {
        hasComment := true;
      }
      assert toks[..i + 1][..i] == toks[..i];
      i := i + 1;
    }
    assert toks[..i] == toks;
    if hasCode {
      code := code + 1;
    } else if hasComment {
      comment := comment + 1;
    }
    counts := LineCounts(toks[|toks| - 1].line, code, comment, blank);
  }

  /**
   * Tokens on lines 1 (comment), 2 (code), 3 (whitespace) and 4 (code):
   * four lines, but two blank ones, since line 0 is filed as blank too.
   */
  lemma FourLineExample()
    ensures CountLines([Token(1, Comment), Token(2, Code), Token(3, Whitespace), Token(4, Code)])
         == LineCounts(4, 2, 1, 2)
  {
    var p1 := [Token(1, Comment)];
    assert p1[..0] == [];
    assert Walk(p1) == WalkState(1, false, true, 0, 0, 1);
    var p2 := p1 + [Token(2, Code)];
    assert p2[..1] == p1;
    assert Walk(p2) == WalkState(2, true, false, 0, 1, 1);
    var p3 := p2 + [Token(3, Whitespace)];
    assert p3[..2] == p2;
    assert Walk(p3) == WalkState(3, false, false, 1, 1, 1);
    var p4 := p3 + [Token(4, Code)];
    assert p4[..3] == p3;
    assert Walk(p4) == WalkState(4, true, false, 1, 1, 2);
    assert p4 == [Token(1, Comment), Token(2, Code), Token(3, Whitespace), Token(4, Code)];
  }
}

=== FILE: records.dfy ===
/**
 * The intermediate text a file report hands to the summary: one
 * `File info` line per file and one `Cat info` line per category with
 * findings, fields separated by ">>", each line ended by the EOL.
 */
module Records {
  import opened Wrappers
  import opened Seqs
  import opened Text
  import opened FileKinds
  import opened LineCount

  const FileTag: string := "File info"
  const CatTag: string := "Cat info"

  datatype Record =
    | FileInfo(kind: FileKind, counts: LineCounts)
    | CatInfo(kind: FileKind, category: string, errors: nat, warnings: nat)

  /** A category label that can travel in a record: no '>' and no line break. */
  predicate CleanLabel(s: string) {
    Avoids(s, '>') && Avoids(s, '\n')
  }

  predicate Clean(r: Record) {
    r.CatInfo? ==> CleanLabel(r.category)
  }

  /** The fields of a record, tag first. */
  function Fields(r: Record): (f: seq<string>)
    ensures |f| == (if r.FileInfo? then 6 else 5)
    ensures f[0] == (if r.FileInfo? then FileTag else CatTag)
  {
    match r
    case FileInfo(k, c) =>
      [FileTag, KindName(k), NatToString(c.totalLines), NatToString(c.code),
       NatToString(c.comment), NatToString(c.blank)]
    case CatInfo(k, cat, e, w) =>
      [CatTag, KindName(k), cat, NatToString(e), NatToString(w)]
  }

  /** The text of one record, without its line end. */
  function Serialize(r: Record): string {
    Join(Fields(r), FieldSep)
  }

  /**
   * What a report writes for a sequence of records: one line per record,
   * each ended by the EOL, so the text is empty exactly when there are no
   * records and otherwise ends with a line break.
   */
  function Emit(rs: seq<Record>): (e: string)
    ensures e == "" <==> rs == []
    ensures |rs| > 0 ==> |e| > 0 && e[|e| - 1] == EOL[0]
    decreases |rs|
  {
    if |rs| == 0 then "" else Serialize(rs[0]) + EOL + Emit(rs[1..])
  }

  /** The lines of the cached text: split on the EOL, the trailing piece dropped. */
  function TextLines(data: string): (ls: seq<string>)
    ensures |ls| == |Split(data, EOL)| - 1
  {
    var parts := Split(data, EOL);
    parts[..|parts| - 1]
  }

  /** How the summary reads one line. */
  datatype Parsed = Info(record: Record) | Ignored | Malformed

  /**
   * A line is split on ">>"; a `File info` line with a known kind and four
   * decimal counters, or a `Cat info` line with a known kind, a label and
   * two decimal counters, is a record; any other first field is ignored.
   * Fields past the ones read are ignored, as the summary never reads them.
   */
  function ParseLine(line: string): (p: Parsed)
    ensures p.Info? ==> (p.record.FileInfo? <==> Split(line, FieldSep)[0] == FileTag)
    ensures p.Ignored? <==> Split(line, FieldSep)[0] != FileTag && Split(line, FieldSep)[0] != CatTag
  {
    var f := Split(line, FieldSep);
    if f[0] == FileTag then
      if |f| < 6 then Malformed
      else match (ParseKind(f[1]), ParseNat(f[2]), ParseNat(f[3]), ParseNat(f[4]), ParseNat(f[5]))
        case (Some(k), Some(t), Some(c), Some(m), Some(b)) => Info(FileInfo(k, LineCounts(t, c, m, b)))
        case _ => Malformed
    else if f[0] == CatTag then
      if |f| < 5 then Malformed
      else match (ParseKind(f[1]), ParseNat(f[3]), ParseNat(f[4]))
        case (Some(k), Some(e), Some(w)) => Info(CatInfo(k, f[2], e, w))
        case _ => Malformed
    else Ignored
  }

  /**
   * The records of the cached text, in order: `None` exactly when some line
   * is a malformed record line, and otherwise at most one record per line.
   */
  function ParseAll(lines: seq<string>): (r: Option<seq<Record>>)
    ensures r.None? <==> exists i :: 0 <= i < |lines| && ParseLine(lines[i]).Malformed?
    ensures r.Some? ==> |r.value| <= |lines|
    decreases |lines|
  {
    if |lines| == 0 then Some([])
    else
      assert forall i :: 1 <= i < |lines| ==> lines[1..][i - 1] == lines[i];
      match (ParseLine(lines[0]), ParseAll(lines[1..]))
      case (Malformed, _) => None
      case (_, None) => None
      case (Ignored, Some(rest)) => Some(rest)
      case (Info(r), Some(rest)) => Some([r] + rest)
  }

  // ---------------------------------------------------------------------------
  // Round trip
  // ---------------------------------------------------------------------------

  /** Joining pieces that avoid `c` with a delimiter that avoids `c` gives a string that avoids `c`. */
  lemma {:induction false} JoinAvoids(parts: seq<string>, d: string, c: char)
    requires Avoids(d, c) && forall k :: 0 <= k < |parts| ==> Avoids(parts[k], c)
    ensures Avoids(Join(parts, d), c)
    decreases |parts|
  {
    if |parts| > 1 {
      JoinAvoids(parts[1..], d, c);
    }
  }

  /** Decimal counters avoid every non-digit. */
  lemma DigitsAvoid(n: nat, c: char)
    requires !IsDigit(c)
    ensures Avoids(NatToString(n), c)
  {
  }

  /** Every field of a clean record is free of '>' and of line breaks. */
  lemma FieldsClean(r: Record, c: char)
    requires Clean(r) && (c == '>' || c == '\n')
    ensures forall k :: 0 <= k < |Fields(r)| ==> Avoids(Fields(r)[k], c)
  {
    KindNameClean(r.kind);
    var f := Fields(r);
    forall k | 0 <= k < |f|
      ensures Avoids(f[k], c)
    {
      if r.FileInfo? {
        if k >= 2 {
          DigitsAvoid([r.counts.totalLines, r.counts.code, r.counts.comment, r.counts.blank][k - 2], c);
        }
      } else {
        if k >= 3 {
          DigitsAvoid([r.errors, r.warnings][k - 3], c);
        }
      }
    }
  }

  /** A clean record's line holds no line break. */
  lemma SerializeOneLine(r: Record)
    requires Clean(r)
    ensures Avoids(Serialize(r), '\n')
  {
    FieldsClean(r, '\n');
    JoinAvoids(Fields(r), FieldSep, '\n');
  }

  /** Splitting a clean record's line on ">>" gives back its fields. */
  lemma SplitSerialize(r: Record)
    requires Clean(r)
    ensures Split(Serialize(r), FieldSep) == Fields(r)
  {
    FieldsClean(r, '>');
    SplitJoin(Fields(r), FieldSep);
  }

  /** Reading a clean record's line gives back the record. */
  lemma ParseSerialize(r: Record)
    requires Clean(r)
    ensures ParseLine(Serialize(r)) == Info(r)
  {
    SplitSerialize(r);
    ParseKindName(r.kind);
    match r
    case FileInfo(k, c) =>
      ParseNatToString(c.totalLines);
      ParseNatToString(c.code);
      ParseNatToString(c.comment);
      ParseNatToString(c.blank);
    case CatInfo(k, cat, e, w) =>
      assert FileTag != CatTag by { assert FileTag[0] != CatTag[0]; }
      ParseNatToString(e);
      ParseNatToString(w);
  }

  /** The lines of the records, each followed by the EOL, are the EOL-join of those lines and an empty piece. */
  lemma {:induction false} EmitIsJoin(rs: seq<Record>)
    ensures Emit(rs) == Join(SerializeAll(rs) + [""], EOL)
    decreases |rs|
  {
    if |rs| > 0 {
      EmitIsJoin(rs[1..]);
      var tail := SerializeAll(rs[1..]) + [""];
      assert SerializeAll(rs) + [""] == [Serialize(rs[0])] + tail;
      assert ([Serialize(rs[0])] + tail)[1..] == tail;
    }
  }

  /** The lines of each record, in order. */
  function SerializeAll(rs: seq<Record>): (ls: seq<string>)
    ensures |ls| == |rs|
    ensures forall k :: 0 <= k < |rs| ==> ls[k] == Serialize(rs[k])
    decreases |rs|
  {
    if |rs| == 0 then [] else [Serialize(rs[0])] + SerializeAll(rs[1..])
  }

  /** No piece of the EOL-join of an emitted text holds a line break. */
  lemma PiecesOneLine(rs: seq<Record>)
    requires forall k :: 0 <= k < |rs| ==> Clean(rs[k])
    ensures forall k :: 0 <= k < |SerializeAll(rs) + [""]| ==> Avoids((SerializeAll(rs) + [""])[k], EOL[0])
  {
    var parts := SerializeAll(rs) + [""];
    forall k | 0 <= k < |parts|
      ensures Avoids(parts[k], EOL[0])
    {
      if k < |rs| {
        SerializeOneLine(rs[k]);
      }
    }
  }

  /** The summary's lines of an emitted text are the records' lines. */
  lemma LinesOfEmit(rs: seq<Record>)
    requires forall k :: 0 <= k < |rs| ==> Clean(rs[k])
    ensures TextLines(Emit(rs)) == SerializeAll(rs)
  {
    var ls := SerializeAll(rs);
    var parts := ls + [""];
    EmitIsJoin(rs);
    PiecesOneLine(rs);
    SplitJoin(parts, EOL);
    assert Split(Emit(rs), EOL) == parts;
    DropLast(ls, "");
  }

  /** Reading the records' lines gives back the records. */
  lemma {:induction false} ParseAllSerialized(rs: seq<Record>)
    requires forall k :: 0 <= k < |rs| ==> Clean(rs[k])
    ensures ParseAll(SerializeAll(rs)) == Some(rs)
    decreases |rs|
  {
    if |rs| > 0 {
      ParseSerialize(rs[0]);
      ParseAllSerialized(rs[1..]);
      var ls := SerializeAll(rs);
      assert ls[1..] == SerializeAll(rs[1..]);
      HeadTail(rs);
    }
  }

  /** Round trip: what the file reports write, the summary reads back unchanged. */
  lemma RoundTrip(rs: seq<Record>)
    requires forall k :: 0 <= k < |rs| ==> Clean(rs[k])
    ensures ParseAll(TextLines(Emit(rs))) == Some(rs)
  {
    LinesOfEmit(rs);
    ParseAllSerialized(rs);
  }

  /** Empty cached text has no lines, and the summary prints nothing. */
  lemma EmptyDataNoLines()
    ensures TextLines("") == []
  {
    IndexOfClean("", EOL);
  }

  /** Every emitted text ends each line with the EOL, so it has no lines exactly when nothing was emitted. */
  lemma EmitNoLines(rs: seq<Record>)
    requires forall k :: 0 <= k < |rs| ==> Clean(rs[k])
    ensures TextLines(Emit(rs)) == [] <==> rs == []
  {
    LinesOfEmit(rs);
  }

  /** Writing records in two goes writes their concatenation. */
  lemma {:induction false} EmitAppend(a: seq<Record>, b: seq<Record>)
    ensures Emit(a + b) == Emit(a) + Emit(b)
    decreases |a|
  {
    if |a| == 0 {
      assert a + b == b;
    } else {
      var ab := a + b;
      assert ab[0] == a[0] && ab[1..] == a[1..] + b;
      EmitAppend(a[1..], b);
      var x, y, z := Serialize(a[0]) + EOL, Emit(a[1..]), Emit(b);
      assert Emit(ab) == x + (y + z);
      AppendAssoc(x, y, z);
    }
  }
}

=== FILE: report.dfy ===
/**
 * The two phases of the report: the per-file phase, which writes the
 * records of one file, and the summary, which reads all records back and
 * decides what the printed tables show.
 */
module Report {
  import opened Wrappers
  import opened Seqs
  import opened Text
  import opened Categories
  import opened FileKinds
  import opened LineCount
  import opened Tally
  import opened Records
  import opened Aggregate

  // ---------------------------------------------------------------------------
  // The per-file phase
  // ---------------------------------------------------------------------------

  /** The `Cat info` records of a file's tallies, in the tallies' order. */
  function CatRecords(k: FileKind, counts: seq<CatCount>): (rs: seq<Record>)
    ensures |rs| == |counts|
    ensures forall i :: 0 <= i < |counts| ==>
      rs[i] == CatInfo(k, counts[i].category, counts[i].errors, counts[i].warnings)
    decreases |counts|
  {
    if |counts| == 0 then []
    else [CatInfo(k, counts[0].category, counts[0].errors, counts[0].warnings)] + CatRecords(k, counts[1..])
  }

  /**
   * The `Cat info` records one file writes under table `t`: one per
   * category that has findings, in order of first use, each counter the
   * number of findings filed under that category with that severity.
   */
  function FileCats(t: Table, kind: FileKind, findings: seq<Finding>): (cs: seq<Record>)
    ensures CatLayout(t, kind, findings, cs)
  {
    CatRecordsMeaning(t, findings, kind);
    CatRecords(kind, TallyFindings(t, findings).counts)
  }

  /**
   * `cs` are the `Cat info` records of a file of kind `kind` under table
   * `t`: one per category that has findings, in order of first use, each
   * counter the number of findings filed under that category with that
   * severity, never both zero.
   */
  predicate CatLayout(t: Table, kind: FileKind, findings: seq<Finding>, cs: seq<Record>) {
    && |cs| == |Dedup(Filed(t, findings))|
    && (forall i :: 0 <= i < |cs| ==>
          var c := Dedup(Filed(t, findings))[i];
          cs[i] == CatInfo(kind, c, Count(t, findings, c, Error), Count(t, findings, c, Warning)))
    && (forall i :: 0 <= i < |cs| ==> cs[i].errors + cs[i].warnings > 0)
  }

  /** The records one file writes under table `t`: its kind and line statistics, then its categories. */
  function FileRecords(t: Table, kind: FileKind, counts: LineCounts, findings: seq<Finding>): (rs: seq<Record>)
    ensures |rs| > 0 && rs[0] == FileInfo(kind, counts)
    ensures CatLayout(t, kind, findings, rs[1..])
  {
    var cs := FileCats(t, kind, findings);
    var rs := [FileInfo(kind, counts)] + cs;
    assert rs[1..] == cs;
    rs
  }

  /**
   * One file: the table is settled (or the run refused with exit code 3
   * before anything is written), then the file's records are written.
   * The table in use is returned for the next file.
   */
  function FileReport(current: Table, standards: seq<string>, path: string, sep: char,
                      toks: seq<Token>, findings: seq<Finding>): (r: Result<(Table, seq<Record>), int>)
    requires |toks| > 0
    ensures r.Failure? <==> |current| == 0 && StrictProfile !in standards && BasicProfile !in standards
    ensures r.Failure? ==> r.error == ConfigErrorCode
    ensures r.Success? ==>
              r.value.0 == (if |current| > 0 then current
                            else if StrictProfile in standards then Basic + Strict
                            else Basic)
    ensures r.Success? ==> |r.value.0| > 0
    ensures r.Success? ==>
              var t, rs, kind := r.value.0, r.value.1, ClassifyPath(path, sep);
              && |rs| > 0 && rs[0] == FileInfo(kind, CountLines(toks))
              && CatLayout(t, kind, findings, rs[1..])
  {
    var t :- SelectTable(current, standards);
    Success((t, FileRecords(t, ClassifyPath(path, sep), CountLines(toks), findings)))
  }

  /** The `Cat info` records of a tally, read against the findings. */
  lemma CatRecordsMeaning(t: Table, findings: seq<Finding>, kind: FileKind)
    ensures var cs := CatRecords(kind, TallyFindings(t, findings).counts);
            && |cs| == |Dedup(Filed(t, findings))|
            && (forall i :: 0 <= i < |cs| ==>
                  var c := Dedup(Filed(t, findings))[i];
                  cs[i] == CatInfo(kind, c, Count(t, findings, c, Error), Count(t, findings, c, Warning)))
            && (forall i :: 0 <= i < |cs| ==> cs[i].errors + cs[i].warnings > 0)
  {
    var counts := TallyFindings(t, findings).counts;
    var cs := CatRecords(kind, counts);
    TallyLabels(t, findings);
    TallyPositive(t, findings);
    forall i | 0 <= i < |cs|
      ensures cs[i].errors == Count(t, findings, cs[i].category, Error)
      ensures cs[i].warnings == Count(t, findings, cs[i].category, Warning)
    {
      TallyEntry(t, findings, i);
    }
  }

  /** Entry `i` of a tally counts the findings filed under its category. */
  lemma TallyEntry(t: Table, findings: seq<Finding>, i: nat)
    requires i < |TallyFindings(t, findings).counts|
    ensures var c := TallyFindings(t, findings).counts[i];
            c.errors == Count(t, findings, c.category, Error)
            && c.warnings == Count(t, findings, c.category, Warning)
  {
    var counts := TallyFindings(t, findings).counts;
    TallyDistinct(t, findings);
    TallyCounts(t, findings, counts[i].category, Error);
    TallyCounts(t, findings, counts[i].category, Warning);
    CountOfDistinct(counts, i);
  }

  /** In distinct counters, a category's counters are those of its entry. */
  lemma {:induction false} CountOfDistinct(counts: seq<CatCount>, i: nat)
    requires i < |counts| && Distinct(Labels(counts))
    ensures CountOf(counts, counts[i].category, Error) == counts[i].errors
    ensures CountOf(counts, counts[i].category, Warning) == counts[i].warnings
    decreases i
  {
    if i > 0 {
      assert Labels(counts)[0] != Labels(counts)[i];
      var tail := counts[1..];
      assert Labels(tail) == Labels(counts)[1..];
      CountOfDistinct(tail, i - 1);
    }
  }

  /** Every label the report's tables use can travel in a record. */
  lemma KnownLabelsClean()
    ensures forall c :: c in KnownLabels ==> CleanLabel(c)
  {
    CleanLabels1();
    CleanLabels2();
    CleanLabels3();
  }

  // The labels, a few at a time.
  lemma CleanLabels1()
    ensures CleanLabel(HardErrors) && CleanLabel(DangerousCode) && CleanLabel(UntestableCode)
    ensures CleanLabel(OutdatedCode) && CleanLabel(MessyCode)
  {
  }

  lemma CleanLabels2()
    ensures CleanLabel(IncompatiblePHP) && CleanLabel(IncompatibleWP) && CleanLabel(ConflictingCode)
    ensures CleanLabel(InsecureCode)
  {
  }

  lemma CleanLabels3()
    ensures CleanLabel(Localization) && CleanLabel(BuggyCode) && CleanLabel(SloppyCode)
    ensures CleanLabel(DiscouragedCode)
  {
  }

  /** The labels of a table the report selects. */
  predicate CleanTable(t: Table) {
    forall i :: 0 <= i < |t| ==> CleanLabel(t[i].category)
  }

  /** Both tables the report selects have clean labels. */
  lemma SelectedTablesClean()
    ensures CleanTable(Basic) && CleanTable(Basic + Strict)
  {
    LabelsKnown();
    KnownLabelsClean();
    forall i | 0 <= i < |Basic|
      ensures CleanLabel(Basic[i].category)
    {
      assert (Basic + Strict)[i] == Basic[i];
    }
  }

  /** A table chosen from the profiles, or kept from a clean one, is clean. */
  lemma SelectTableClean(current: Table, standards: seq<string>)
    requires CleanTable(current) && SelectTable(current, standards).Success?
    ensures CleanTable(SelectTable(current, standards).value)
  {
    SelectedTablesClean();
  }

  /** The tallies' labels come from the table. */
  lemma {:induction false} FiledFromTable(t: Table, fs: seq<Finding>)
    ensures forall c :: c in Filed(t, fs) ==> exists i :: 0 <= i < |t| && t[i].category == c
    decreases |fs|
  {
    if |fs| > 0 {
      FiledFromTable(t, fs[..|fs| - 1]);
      EffectiveFromTable(t, fs);
    }
  }

  lemma {:induction false} EffectiveFromTable(t: Table, fs: seq<Finding>)
    ensures Effective(t, fs).Some? ==> exists i :: 0 <= i < |t| && t[i].category == Effective(t, fs).value
    decreases |fs|
  {
    if |fs| > 0 {
      EffectiveFromTable(t, fs[..|fs| - 1]);
      var r := ResolveIndex(t, fs[|fs| - 1].source);
      if r.Some? {
        assert t[r.value].category == Resolve(t, fs[|fs| - 1].source).value;
      }
    }
  }

  /** Under a clean table, every record of a file can be read back. */
  lemma FileRecordsClean(t: Table, kind: FileKind, counts: LineCounts, findings: seq<Finding>)
    requires CleanTable(t)
    ensures var rs := FileRecords(t, kind, counts, findings);
            forall i :: 0 <= i < |rs| ==> Clean(rs[i])
  {
    var cs := FileCats(t, kind, findings);
    var rs := FileRecords(t, kind, counts, findings);
    FileCatsClean(t, kind, findings);
    assert forall i :: 1 <= i < |rs| ==> rs[i] == cs[i - 1];
  }

  /** Under a clean table, the labels of a file's `Cat info` records are clean. */
  lemma FileCatsClean(t: Table, kind: FileKind, findings: seq<Finding>)
    requires CleanTable(t)
    ensures var cs := FileCats(t, kind, findings);
            forall i :: 0 <= i < |cs| ==> Clean(cs[i])
  {
    var cs := FileCats(t, kind, findings);
    var filed := Filed(t, findings);
    FiledFromTable(t, findings);
    DedupElements(filed);
    forall i | 0 <= i < |cs|
      ensures CleanLabel(cs[i].category)
    {
      var c := Dedup(filed)[i];
      assert c in filed;
      var j :| 0 <= j < |t| && t[j].category == c;
    }
  }

  /** A file as the run sees it: its path, its tokens and its findings. */
  datatype FileInput = FileInput(path: string, tokens: seq<Token>, findings: seq<Finding>)

  /** Every file has tokens, in the order of their lines. */
  predicate Tokenized(files: seq<FileInput>) {
    forall i :: 0 <= i < |files| ==> |files[i].tokens| > 0 && Ordered(files[i].tokens)
  }

  /**
   * The run over the files in order: the records of every file, at least one
   * per file, or exit code 3 at the first file, which happens exactly when
   * there is a file, no table has been chosen and neither profile is listed.
   */
  function RunFrom(current: Table, standards: seq<string>, sep: char, files: seq<FileInput>): (r: Result<seq<Record>, int>)
    requires Tokenized(files)
    ensures r.Failure? ==> r.error == ConfigErrorCode
    ensures r.Failure? <==> !Configured(current, standards, files)
    ensures r.Success? ==> |r.value| >= |files|
    ensures r.Success? && |files| > 0 ==>
              SelectTable(current, standards).Success? &&
              r.value == RunRecords(SelectTable(current, standards).value, sep, files)
    decreases |files|
  {
    if |files| == 0 then Success([])
    else
      var f := files[0];
      match FileReport(current, standards, f.path, sep, f.tokens, f.findings)
      case Failure(e) => Failure(e)
      case Success((t, rs)) =>
        match RunFrom(t, standards, sep, files[1..])
        case Failure(e) => Failure(e)
        case Success(rest) => Success(rs + rest)
  }

  /**
   * Reference: the records of the files in order, every file written under
   * the one table `t`.
   */
  function RunRecords(t: Table, sep: char, files: seq<FileInput>): seq<Record>
    requires Tokenized(files)
    decreases |files|
  {
    if |files| == 0 then []
    else
      var f := files[0];
      assert forall i :: 1 <= i < |files| ==> files[1..][i - 1] == files[i];
      FileRecords(t, ClassifyPath(f.path, sep), CountLines(f.tokens), f.findings) + RunRecords(t, sep, files[1..])
  }

  /** The whole per-file phase, starting without a table: refused exactly when there are files and neither profile is listed. */
  function Run(standards: seq<string>, sep: char, files: seq<FileInput>): (r: Result<seq<Record>, int>)
    requires Tokenized(files)
    ensures r.Failure? <==> |files| > 0 && StrictProfile !in standards && BasicProfile !in standards
  {
    RunFrom([], standards, sep, files)
  }

  /** A run can only be refused when there are files, no table has been chosen yet and neither profile is listed. */
  predicate Configured(current: Table, standards: seq<string>, files: seq<FileInput>) {
    files == [] || |current| > 0 || StrictProfile in standards || BasicProfile in standards
  }

  /** Every record a run writes can be read back. */
  lemma {:induction false} RunFromClean(current: Table, standards: seq<string>, sep: char, files: seq<FileInput>)
    requires Tokenized(files) && CleanTable(current) && Configured(current, standards, files)
    ensures RunFrom(current, standards, sep, files).Success?
    ensures var rs := RunFrom(current, standards, sep, files).value;
            forall i :: 0 <= i < |rs| ==> Clean(rs[i])
    decreases |files|
  {
    if |files| > 0 {
      var f := files[0];
      var r := FileReport(current, standards, f.path, sep, f.tokens, f.findings);
      SelectTableClean(current, standards);
      FileRecordsClean(r.value.0, ClassifyPath(f.path, sep), CountLines(f.tokens), f.findings);
      RunFromClean(r.value.0, standards, sep, files[1..]);
      CleanAppend(r.value.1, RunFrom(r.value.0, standards, sep, files[1..]).value);
    }
  }

  lemma CleanAppend(a: seq<Record>, b: seq<Record>)
    requires forall i :: 0 <= i < |a| ==> Clean(a[i])
    requires forall i :: 0 <= i < |b| ==> Clean(b[i])
    ensures forall i :: 0 <= i < |a + b| ==> Clean((a + b)[i])
  {
  }

  /** A file's records never claim more blank lines than its line counts do. */
  lemma FileRecordsSane(t: Table, counts: LineCounts, kind: FileKind, findings: seq<Finding>)
    requires counts.blank <= counts.totalLines
    ensures var rs := FileRecords(t, kind, counts, findings);
            forall i :: 0 <= i < |rs| ==> Sane(rs[i])
  {
  }

  lemma SaneAppend(a: seq<Record>, b: seq<Record>)
    requires forall i :: 0 <= i < |a| ==> Sane(a[i])
    requires forall i :: 0 <= i < |b| ==> Sane(b[i])
    ensures forall i :: 0 <= i < |a + b| ==> Sane((a + b)[i])
  {
  }

  /** Every record a run writes is sane. */
  lemma {:induction false} RunFromSane(current: Table, standards: seq<string>, sep: char, files: seq<FileInput>)
    requires Tokenized(files) && Configured(current, standards, files)
    ensures RunFrom(current, standards, sep, files).Success?
    ensures var rs := RunFrom(current, standards, sep, files).value;
            forall i :: 0 <= i < |rs| ==> Sane(rs[i])
    decreases |files|
  {
    if |files| > 0 {
      var f := files[0];
      var r := FileReport(current, standards, f.path, sep, f.tokens, f.findings);
      FileRecordsSane(r.value.0, CountLines(f.tokens), ClassifyPath(f.path, sep), f.findings);
      RunFromSane(r.value.0, standards, sep, files[1..]);
      SaneAppend(r.value.1, RunFrom(r.value.0, standards, sep, files[1..]).value);
    }
  }

  /**
   * For a run, the test notice appears exactly when no test file has a line
   * that is not blank.
   */
  lemma RunTestNotice(standards: seq<string>, sep: char, files: seq<FileInput>)
    requires Tokenized(files) && Configured([], standards, files)
    ensures Run(standards, sep, files).Success?
    ensures var rs := Run(standards, sep, files).value;
            TestNotice(Fold(rs).files) <==>
              forall i :: 0 <= i < |rs| && rs[i].FileInfo? && rs[i].kind == Test ==>
                rs[i].counts.blank == rs[i].counts.totalLines
  {
    RunFromSane([], standards, sep, files);
    TestNoticeMeans(Run(standards, sep, files).value);
  }

  /** The cached text of a run: what each file wrote, in order. */
  function CachedText(standards: seq<string>, sep: char, files: seq<FileInput>): string
    requires Tokenized(files)
  {
    match Run(standards, sep, files)
    case Success(rs) => Emit(rs)
    case Failure(_) => ""
  }

  // ---------------------------------------------------------------------------
  // The summary's decisions
  // ---------------------------------------------------------------------------

  /** The width the summary's rules and wrapped lines use. */
  function ReportWidth(width: int): (w: int)
    ensures w >= 78 && w >= width
    ensures w == 78 || w == width
  {
    if width > 78 then width else 78
  }

  /** A row of the file table: with shares of the non-blank lines, or only the line total. */
  datatype KindRow =
    | Shares(files: nat, nonBlank: int, code: nat, comment: nat)
    | NoShares(files: nat, totalLines: nat)

  /** The row printed for a kind's (or all files') statistics. */
  function RowOf(s: FileStats): (row: KindRow)
    ensures row.Shares? <==> NonBlank(s) > 0
    ensures row.files == s.files
    ensures row.Shares? ==> row.nonBlank == NonBlank(s) && row.code == s.codeLines && row.comment == s.commentLines
    ensures row.NoShares? ==> row.totalLines == s.totalLines
  {
    if NonBlank(s) > 0 then Shares(s.files, NonBlank(s), s.codeLines, s.commentLines)
    else NoShares(s.files, s.totalLines)
  }

  /** The notice that missing tests need not mean untested code. */
  predicate TestNotice(ks: KindStats) {
    NonBlank(ks.test) == 0
  }

  /** A file's statistics say no more lines are blank than it has. */
  predicate Sane(r: Record) {
    r.FileInfo? ==> r.counts.blank <= r.counts.totalLines
  }

  /** A kind's non-blank count is the sum of its files' non-blank counts. */
  lemma {:induction false} FileSumNonBlank(rs: seq<Record>, k: FileKind)
    requires forall i :: 0 <= i < |rs| ==> Sane(rs[i])
    ensures NonBlank(FileSum(rs, k)) >= 0
    ensures NonBlank(FileSum(rs, k)) == 0 <==>
      forall i :: 0 <= i < |rs| && rs[i].FileInfo? && rs[i].kind == k ==> rs[i].counts.blank == rs[i].counts.totalLines
    decreases |rs|
  {
    if |rs| > 0 {
      FileSumNonBlank(rs[1..], k);
      assert forall i :: 1 <= i < |rs| ==> rs[1..][i - 1] == rs[i];
    }
  }

  /**
   * The test notice appears exactly when no test file has a line that is
   * not blank, including when there are no test files at all.
   */
  lemma TestNoticeMeans(rs: seq<Record>)
    requires forall i :: 0 <= i < |rs| ==> Sane(rs[i])
    ensures TestNotice(Fold(rs).files) <==>
      forall i :: 0 <= i < |rs| && rs[i].FileInfo? && rs[i].kind == Test ==> rs[i].counts.blank == rs[i].counts.totalLines
  {
    FoldFiles(rs, Test);
    FileSumNonBlank(rs, Test);
  }

  /** A kind's row shows shares exactly when one of its files has a line that is not blank. */
  lemma RowSharesMeans(rs: seq<Record>, k: FileKind)
    requires forall i :: 0 <= i < |rs| ==> Sane(rs[i])
    ensures RowOf(Fold(rs).files.Get(k)).Shares? <==>
      exists i :: 0 <= i < |rs| && rs[i].FileInfo? && rs[i].kind == k && rs[i].counts.blank < rs[i].counts.totalLines
  {
    FoldFiles(rs, k);
    FileSumNonBlank(rs, k);
  }

  /** The labels of a table, in table order. */
  function TableLabels(t: Table): (ls: seq<string>)
    ensures |ls| == |t| && forall i :: 0 <= i < |t| ==> ls[i] == t[i].category
  {
    seq(|t|, i requires 0 <= i < |t| => t[i].category)
  }

  /** A label occurs in the table's labels exactly when some rule carries it. */
  lemma TableLabelsHold(t: Table)
    ensures forall c :: c in TableLabels(t) <==> exists i :: 0 <= i < |t| && t[i].category == c
  {
    var ls := TableLabels(t);
    forall c | c in ls
      ensures exists i :: 0 <= i < |t| && t[i].category == c
    {
      var i :| 0 <= i < |ls| && ls[i] == c;
    }
  }

  /** The category rows of every table: each label of the table once, in order of first occurrence. */
  function CategoryRows(t: Table): (rows: seq<string>)
    ensures Distinct(rows)
    ensures forall c :: c in rows <==> exists i :: 0 <= i < |t| && t[i].category == c
    ensures forall i :: 0 <= i < |rows| ==> rows[i] in TableLabels(t)
    ensures forall i, j :: 0 <= i < j < |rows| ==> FirstIndex(TableLabels(t), rows[i]) < FirstIndex(TableLabels(t), rows[j])
  {
    DedupElements(TableLabels(t));
    TableLabelsHold(t);
    Dedup(TableLabels(t))
  }

  /** A cell of a category table: '-' or a count (its share of the non-blank lines is not modelled). */
  datatype Cell = Dash | Shown(n: nat)

  /** A count is shown only when it is positive. */
  function CellOf(n: nat): (c: Cell)
    ensures c.Shown? <==> n > 0
    ensures c.Shown? ==> c.n == n
  {
    if n > 0 then Shown(n) else Dash
  }

  /** A shown cell holds a positive count. */
  predicate Proper(c: Cell) {
    c.Shown? ==> c.n > 0
  }

  function CellValue(c: Cell): nat {
    match c
    case Dash => 0
    case Shown(n) => n
  }

  datatype CatRow = CatRow(category: string, errors: Cell, warnings: Cell)

  /** The row of category `c` in the table of kind `k`: dashes when it has no tally. */
  function CatRowOf(cats: map<(FileKind, string), CatTally>, k: FileKind, c: string): (row: CatRow)
    ensures row.category == c
    ensures Proper(row.errors) && Proper(row.warnings)
    ensures row.errors.Shown? <==> (k, c) in cats && cats[(k, c)].errors > 0
    ensures row.warnings.Shown? <==> (k, c) in cats && cats[(k, c)].warnings > 0
    ensures CellValue(row.errors) == TallyOf(cats, (k, c)).errors
    ensures CellValue(row.warnings) == TallyOf(cats, (k, c)).warnings
  {
    if (k, c) !in cats then CatRow(c, Dash, Dash)
    else CatRow(c, CellOf(cats[(k, c)].errors), CellOf(cats[(k, c)].warnings))
  }

  function CatRowsOf(cats: map<(FileKind, string), CatTally>, k: FileKind, labels: seq<string>): (rows: seq<CatRow>)
    ensures |rows| == |labels|
    ensures forall i :: 0 <= i < |labels| ==> rows[i] == CatRowOf(cats, k, labels[i])
    decreases |labels|
  {
    if |labels| == 0 then [] else [CatRowOf(cats, k, labels[0])] + CatRowsOf(cats, k, labels[1..])
  }

  /** The type total of one column: only shown counts are added. */
  function ErrorTotal(rows: seq<CatRow>): nat
    decreases |rows|
  {
    if |rows| == 0 then 0
    else (match rows[0].errors case Shown(n) => n case Dash => 0) + ErrorTotal(rows[1..])
  }

  function WarningTotal(rows: seq<CatRow>): nat
    decreases |rows|
  {
    if |rows| == 0 then 0
    else (match rows[0].warnings case Shown(n) => n case Dash => 0) + WarningTotal(rows[1..])
  }

  /** The counters of kind `k` over the categories `labels`, summed per severity. */
  function LabelSum(cats: map<(FileKind, string), CatTally>, k: FileKind, labels: seq<string>): CatTally
    decreases |labels|
  {
    if |labels| == 0 then CatTally(0, 0)
    else
      var rest := LabelSum(cats, k, labels[1..]);
      var here := TallyOf(cats, (k, labels[0]));
      CatTally(here.errors + rest.errors, here.warnings + rest.warnings)
  }

  /** The column totals of a kind's table are the kind's counters summed over the category rows. */
  lemma {:induction false} RowTotals(cats: map<(FileKind, string), CatTally>, k: FileKind, labels: seq<string>)
    ensures ErrorTotal(CatRowsOf(cats, k, labels)) == LabelSum(cats, k, labels).errors
    ensures WarningTotal(CatRowsOf(cats, k, labels)) == LabelSum(cats, k, labels).warnings
    decreases |labels|
  {
    if |labels| > 0 {
      var rows := CatRowsOf(cats, k, labels);
      assert rows[1..] == CatRowsOf(cats, k, labels[1..]);
      RowTotals(cats, k, labels[1..]);
    }
  }

  /** A total column shows '-' exactly when every row of that column does. */
  lemma {:induction false} TotalsDash(rows: seq<CatRow>)
    requires forall i :: 0 <= i < |rows| ==> Proper(rows[i].errors) && Proper(rows[i].warnings)
    ensures ErrorTotal(rows) == 0 <==> forall i :: 0 <= i < |rows| ==> rows[i].errors == Dash
    ensures WarningTotal(rows) == 0 <==> forall i :: 0 <= i < |rows| ==> rows[i].warnings == Dash
    decreases |rows|
  {
    if |rows| > 0 {
      TotalsDash(rows[1..]);
      assert forall i :: 1 <= i < |rows| ==> rows[1..][i - 1] == rows[i];
    }
  }

  /** The table of one kind: a row per category and the type totals. */
  datatype TypeTable = TypeTable(kind: FileKind, rows: seq<CatRow>, total: CatRow)

  function TypeTableOf(cats: map<(FileKind, string), CatTally>, k: FileKind, labels: seq<string>): (tt: TypeTable)
    ensures tt.kind == k && |tt.rows| == |labels|
    ensures forall i :: 0 <= i < |labels| ==> tt.rows[i] == CatRowOf(cats, k, labels[i])
    ensures tt.total.errors.Shown? <==> exists i :: 0 <= i < |labels| && tt.rows[i].errors.Shown?
    ensures tt.total.warnings.Shown? <==> exists i :: 0 <= i < |labels| && tt.rows[i].warnings.Shown?
    ensures CellValue(tt.total.errors) == LabelSum(cats, k, labels).errors
    ensures CellValue(tt.total.warnings) == LabelSum(cats, k, labels).warnings
  {
    var rows := CatRowsOf(cats, k, labels);
    TotalsDash(rows);
    RowTotals(cats, k, labels);
    TypeTable(k, rows, CatRow("Total", CellOf(ErrorTotal(rows)), CellOf(WarningTotal(rows))))
  }

  /**
   * The low-signal notice: no issues at all, or fewer issues than 0.2% of
   * the non-blank lines (computed exactly; the report divides in floating point).
   */
  predicate LowSignal(issues: nat, nonBlank: int)
    requires nonBlank != 0
  {
    issues == 0 || (issues as real / nonBlank as real) * 100.0 < 0.2
  }

  /** Multiplying both sides by a positive number keeps a strict order. */
  lemma ScaleLess(x: real, y: real, n: real)
    requires n > 0.0
    ensures x < y <==> x * n < y * n
  {
  }

  /** A percentage of a base, times the base, is a hundred times the part. */
  lemma PercentOfBase(i: real, n: real)
    requires n > 0.0
    ensures (i / n * 100.0) * n == i * 100.0
  {
    assert (i / n) * n == i;
  }

  /** For a positive line count, the notice appears exactly when 500 times the issues stay below it. */
  lemma LowSignalIff(issues: nat, nonBlank: int)
    requires nonBlank > 0
    ensures LowSignal(issues, nonBlank) <==> issues == 0 || 500 * issues < nonBlank
  {
    var i, n := issues as real, nonBlank as real;
    var p := i / n * 100.0;
    ScaleLess(p, 0.2, n);
    PercentOfBase(i, n);
    assert p < 0.2 <==> i * 100.0 < 0.2 * n;
  }

  /** One issue in a thousand lines is low; five are not; two sit on the boundary and are not. */
  lemma LowSignalExamples()
    ensures LowSignal(1, 1000) && !LowSignal(5, 1000) && !LowSignal(2, 1000)
  {
    LowSignalIff(1, 1000);
    LowSignalIff(5, 1000);
    LowSignalIff(2, 1000);
  }

  /** What the summary decides to show. */
  datatype Summary = Summary(
    width: int,
    kindRows: seq<KindRow>,
    totalRow: KindRow,
    testNotice: bool,
    tables: seq<TypeTable>,
    lowSignal: bool)

  const KindOrder: seq<FileKind> := [Plugin, Test, Vendor]

  /**
   * The divisions the summary performs have a non-zero divisor: the share
   * of issues among all non-blank lines, and the share of every shown count
   * among its kind's non-blank lines.
   */
  predicate Divisible(s: Stats, kinds: seq<FileKind>, labels: seq<string>) {
    && NonBlank(Totals(s.files)) != 0
    && forall k, c :: k in kinds && c in labels && (k, c) in s.cats
         && (s.cats[(k, c)].errors > 0 || s.cats[(k, c)].warnings > 0)
         ==> NonBlank(s.files.Get(k)) != 0
  }

  /** The decisions of the summary for statistics `s`, table kinds `kinds` and category rows `labels`. */
  function Decide(s: Stats, kinds: seq<FileKind>, labels: seq<string>, issues: nat, width: int): (r: Summary)
    requires NonBlank(Totals(s.files)) != 0
    ensures r.testNotice <==> NonBlank(s.files.test) == 0
    ensures |r.kindRows| == 3 && forall i :: 0 <= i < 3 ==> r.kindRows[i] == RowOf(s.files.Get(KindOrder[i]))
    ensures r.totalRow == RowOf(Totals(s.files))
    ensures r.width == ReportWidth(width) && r.width >= 78
    ensures NonBlank(Totals(s.files)) > 0 ==>
      (r.lowSignal <==> issues == 0 || 500 * issues < NonBlank(Totals(s.files)))
    ensures |r.tables| == |kinds|
    ensures forall i :: 0 <= i < |kinds| ==> r.tables[i] == TypeTableOf(s.cats, kinds[i], labels)
  {
    var nb := NonBlank(Totals(s.files));
    var r := Summary(ReportWidth(width),
                     [RowOf(s.files.plugin), RowOf(s.files.test), RowOf(s.files.vendor)],
                     RowOf(Totals(s.files)),
                     TestNotice(s.files),
                     seq(|kinds|, i requires 0 <= i < |kinds| => TypeTableOf(s.cats, kinds[i], labels)),
                     LowSignal(issues, nb));
    if nb > 0 then LowSignalIff(issues, nb); r else r
  }

  /** The records of the cached text, when every record line is well formed. */
  function Parsed(data: string): Option<seq<Record>> {
    ParseAll(TextLines(data))
  }

  /** The summary's preconditions: the records are well formed and every division it performs is defined. */
  predicate Summarizable(data: string, t: Table) {
    && Parsed(data).Some?
    && (TextLines(data) != [] ==>
          Divisible(Fold(Parsed(data).value), CatKinds(Parsed(data).value), CategoryRows(t)))
  }

  /**
   * The summary: nothing at all when the cached text has no lines;
   * otherwise the decisions for the statistics of its records.
   */
  function Generate(data: string, totalErrors: nat, totalWarnings: nat, t: Table, width: int): (r: Option<Summary>)
    requires Summarizable(data, t)
    ensures r.None? <==> TextLines(data) == []
  {
    if TextLines(data) == [] then None
    else
      var rs := Parsed(data).value;
      Some(Decide(Fold(rs), CatKinds(rs), CategoryRows(t), totalErrors + totalWarnings, width))
  }

  /**
   * End to end: a run that can choose a table succeeds, the summary reads
   * its cached text back as exactly the records the files wrote, and sees
   * no lines exactly when there were no files.
   */
  lemma {:induction false} RunSummary(standards: seq<string>, sep: char, files: seq<FileInput>)
    requires Tokenized(files) && Configured([], standards, files)
    ensures Run(standards, sep, files).Success?
    ensures Parsed(CachedText(standards, sep, files)) == Some(Run(standards, sep, files).value)
    ensures TextLines(CachedText(standards, sep, files)) == [] <==> files == []
  {
    RunFromClean([], standards, sep, files);
    var rs := Run(standards, sep, files).value;
    RoundTrip(rs);
    EmitNoLines(rs);
    if |files| > 0 {
      var f := files[0];
      var r := FileReport([], standards, f.path, sep, f.tokens, f.findings);
      assert |r.value.1| >= 1;
    }
  }

  /**
   * End to end, with the table the file phase chose: for a run over at least
   * one file with a profile listed, the summary of the cached text is the
   * decision for the statistics of exactly the records the files wrote.
   */
  lemma RunGenerate(standards: seq<string>, sep: char, files: seq<FileInput>,
                    totalErrors: nat, totalWarnings: nat, width: int)
    requires Tokenized(files) && |files| > 0
    requires StrictProfile in standards || BasicProfile in standards
    requires var rs := Run(standards, sep, files).value;
             Divisible(Fold(rs), CatKinds(rs), CategoryRows(SelectTable([], standards).value))
    ensures var t := SelectTable([], standards).value;
            Summarizable(CachedText(standards, sep, files), t)
    ensures var t, rs := SelectTable([], standards).value, Run(standards, sep, files).value;
            Generate(CachedText(standards, sep, files), totalErrors, totalWarnings, t, width)
              == Some(Decide(Fold(rs), CatKinds(rs), CategoryRows(t), totalErrors + totalWarnings, width))
  {
    RunSummary(standards, sep, files);
  }

  /** An empty cached text prints nothing. */
  lemma EmptyRunSilent(totalErrors: nat, totalWarnings: nat, t: Table, width: int)
    ensures Summarizable("", t) && Generate("", totalErrors, totalWarnings, t, width) == None
  {
    EmptyDataNoLines();
  }

  /** A cell of a kind's table shows the summed counter of that kind's records for its category, when positive. */
  lemma CellOfRecords(rs: seq<Record>, k: FileKind, c: string)
    ensures var row := CatRowOf(Fold(rs).cats, k, c);
            && (row.errors.Shown? <==> CatSum(rs, (k, c)).errors > 0)
            && (row.warnings.Shown? <==> CatSum(rs, (k, c)).warnings > 0)
            && CellValue(row.errors) == CatSum(rs, (k, c)).errors
            && CellValue(row.warnings) == CatSum(rs, (k, c)).warnings
  {
    FoldCats(rs, (k, c));
  }

  /** Records read in any order yield the same kinds of category table. */
  lemma CatKindsPermutation(rs: seq<Record>, qs: seq<Record>)
    requires multiset(rs) == multiset(qs)
    ensures forall k :: k in CatKinds(rs) <==> k in CatKinds(qs)
  {
    forall k | k in CatKinds(rs)
      ensures k in CatKinds(qs)
    {
      var i :| 0 <= i < |rs| && rs[i].CatInfo? && rs[i].kind == k;
      assert rs[i] in multiset(qs);
      var j :| 0 <= j < |qs| && qs[j] == rs[i];
    }
    forall k | k in CatKinds(qs)
      ensures k in CatKinds(rs)
    {
      var j :| 0 <= j < |qs| && qs[j].CatInfo? && qs[j].kind == k;
      assert qs[j] in multiset(rs);
      var i :| 0 <= i < |rs| && rs[i] == qs[j];
    }
  }

  /**
   * The summary does not depend on the order the records were written in:
   * the same rows, notices and category tables, only the order of the
   * category tables following the order kinds first appear.
   */
  lemma SummaryOrderFree(rs: seq<Record>, qs: seq<Record>, labels: seq<string>, issues: nat, width: int)
    requires multiset(rs) == multiset(qs) && NonBlank(Totals(Fold(rs).files)) != 0
    ensures Fold(rs) == Fold(qs)
    ensures var a, b := Decide(Fold(rs), CatKinds(rs), labels, issues, width),
                        Decide(Fold(qs), CatKinds(qs), labels, issues, width);
            && a.kindRows == b.kindRows && a.totalRow == b.totalRow
            && a.testNotice == b.testNotice && a.lowSignal == b.lowSignal
            && (forall i :: 0 <= i < |a.tables| ==> a.tables[i] in b.tables)
            && (forall j :: 0 <= j < |b.tables| ==> b.tables[j] in a.tables)
  {
    FoldPermutation(rs, qs);
    CatKindsPermutation(rs, qs);
    var a, b := Decide(Fold(rs), CatKinds(rs), labels, issues, width),
                Decide(Fold(qs), CatKinds(qs), labels, issues, width);
    var ka, kb := CatKinds(rs), CatKinds(qs);
    forall i | 0 <= i < |a.tables|
      ensures a.tables[i] in b.tables
    {
      var j :| 0 <= j < |kb| && kb[j] == ka[i];
      assert b.tables[j] == a.tables[i];
    }
    forall j | 0 <= j < |b.tables|
      ensures b.tables[j] in a.tables
    {
      var i :| 0 <= i < |ka| && ka[i] == kb[j];
      assert a.tables[i] == b.tables[j];
    }
  }
}

=== FILE: seqs.dfy ===
/** Sequence helpers: PHP's `array_unique` on a list of values. */
module Seqs {

  /** A non-empty sequence is its head followed by its tail. */
  lemma HeadTail<T>(s: seq<T>)
    requires |s| > 0
    ensures [s[0]] + s[1..] == s
  {
  }

  /** A non-empty sequence is its front followed by its last element. */
  lemma InitLast<T>(s: seq<T>)
    requires |s| > 0
    ensures s[..|s| - 1] + [s[|s| - 1]] == s
  {
  }

  /** Dropping the last element of `s + [x]` gives back `s`. */
  lemma DropLast<T>(s: seq<T>, x: T)
    ensures (s + [x])[..|s|] == s
  {
  }

  /** Concatenation is associative. */
  lemma AppendAssoc<T>(x: seq<T>, y: seq<T>, z: seq<T>)
    ensures x + (y + z) == (x + y) + z
  {
  }

  /** No value occurs twice. */
  predicate Distinct<T(==)>(s: seq<T>) {
    forall i, j :: 0 <= i < j < |s| ==> s[i] != s[j]
  }

  /** The position of the first occurrence of `x` in `s`. */
  function FirstIndex<T(==)>(s: seq<T>, x: T): (i: nat)
    requires x in s
    ensures i < |s| && s[i] == x
    ensures forall j :: 0 <= j < i ==> s[j] != x
  {
    if s[0] == x then 0 else 1 + FirstIndex(s[1..], x)
  }

  /** A value already present in a prefix has its first occurrence there. */
  lemma FirstIndexPrefix<T>(s: seq<T>, k: nat, x: T)
    requires k <= |s| && x in s[..k]
    ensures x in s && FirstIndex(s, x) == FirstIndex(s[..k], x)
  {
    var i := FirstIndex(s[..k], x);
    assert s[i] == x;
    var f := FirstIndex(s, x);
    assert f < k ==> s[..k][f] == s[f];
  }

  /**
   * PHP `array_unique` on a list: each value kept once, at its first
   * occurrence, in the order of first occurrences.
   */
  function Dedup<T(==)>(s: seq<T>): (r: seq<T>)
    ensures Distinct(r)
    ensures forall i :: 0 <= i < |s| ==> s[i] in r
    ensures forall i :: 0 <= i < |r| ==> r[i] in s
    ensures forall i, j :: 0 <= i < j < |r| ==> FirstIndex(s, r[i]) < FirstIndex(s, r[j])
    decreases |s|
  {
    if |s| == 0 then []
    else
      var init := s[..|s| - 1];
      var r := Dedup(init);
      var x := s[|s| - 1];
      InitLast(s);
      forall y | y in init
        ensures FirstIndex(s, y) == FirstIndex(init, y)
      {
        FirstIndexPrefix(s, |s| - 1, y);
      }
      if x in r then r
      else
        var r' := r + [x];
        assert FirstIndex(s, x) == |s| - 1;
        assert forall i :: 0 <= i < |r| ==> r'[i] == r[i];
        r'
  }

  /** `array_unique` keeps exactly the values of its input. */
  lemma DedupElements<T>(s: seq<T>)
    ensures forall x :: x in Dedup(s) <==> x in s
  {
    var r := Dedup(s);
    forall x
      ensures x in r <==> x in s
    {
      if x in s {
        var i :| 0 <= i < |s| && s[i] == x;
        assert s[i] in r;
      }
      if x in r {
        var i :| 0 <= i < |r| && r[i] == x;
        assert r[i] in s;
      }
    }
  }
}

=== FILE: tally.dfy ===
/**
 * The per-file category tallies: each finding is put under the category of
 * the first table entry whose prefix starts its sniff code, and a finding
 * no entry matches is put under the category of the last finding that did
 * match (the category variable is never reset inside a file).
 */
module Tally {
  import opened Wrappers
  import opened Seqs
  import opened Text
  import opened Categories

  datatype Severity = Error | Warning

  /** One finding of the file, in the order the report walks them (line, column, message). */
  datatype Finding = Finding(source: string, severity: Severity)

  /** The ERROR and WARNING counters of one category. */
  datatype CatCount = CatCount(category: string, errors: nat, warnings: nat)

  /** The loop variables: the category in force, and the counters in order of first use. */
  datatype TallyState = TallyState(category: Option<string>, counts: seq<CatCount>)

  /** The categories of the counters, in order. */
  function Labels(counts: seq<CatCount>): (r: seq<string>)
    ensures |r| == |counts|
    ensures forall k :: 0 <= k < |counts| ==> r[k] == counts[k].category
    decreases |counts|
  {
    if |counts| == 0 then [] else [counts[0].category] + Labels(counts[1..])
  }

  /** The counter of `sev` for category `c`; a category without an entry counts zero. */
  function CountOf(counts: seq<CatCount>, c: string, sev: Severity): nat
    decreases |counts|
  {
    if |counts| == 0 then 0
    else if counts[0].category == c then (if sev == Error then counts[0].errors else counts[0].warnings)
    else CountOf(counts[1..], c, sev)
  }

  /** Every entry has counted at least one finding. */
  predicate Positive(counts: seq<CatCount>) {
    forall k :: 0 <= k < |counts| ==> counts[k].errors + counts[k].warnings > 0
  }

  /** The number of findings the counters hold. */
  function Total(counts: seq<CatCount>): nat
    decreases |counts|
  {
    if |counts| == 0 then 0 else counts[0].errors + counts[0].warnings + Total(counts[1..])
  }

  /** The entry of a category seen for the first time. */
  function Fresh(c: string, sev: Severity): CatCount {
    CatCount(c, if sev == Error then 1 else 0, if sev == Warning then 1 else 0)
  }

  /**
   * Increments the counter of `sev` for category `c`, creating the entry
   * with both counters at zero first when the category is new.
   */
  function Bump(counts: seq<CatCount>, c: string, sev: Severity): (r: seq<CatCount>)
    ensures Total(r) == Total(counts) + 1
    decreases |counts|
  {
    if |counts| == 0 then [Fresh(c, sev)]
    else if counts[0].category == c then
      var e := counts[0];
      var r := [if sev == Error then e.(errors := e.errors + 1) else e.(warnings := e.warnings + 1)] + counts[1..];
      assert r[1..] == counts[1..];
      r
    else
      var rest := Bump(counts[1..], c, sev);
      assert ([counts[0]] + rest)[1..] == rest;
      [counts[0]] + rest
  }

  /** Bumping adds the category at the end when it is new, and keeps the order otherwise. */
  lemma {:induction false} BumpLabels(counts: seq<CatCount>, c: string, sev: Severity)
    ensures Labels(Bump(counts, c, sev)) == if c in Labels(counts) then Labels(counts) else Labels(counts) + [c]
    decreases |counts|
  {
    if |counts| > 0 && counts[0].category != c {
      BumpLabels(counts[1..], c, sev);
      assert Labels(counts) == [counts[0].category] + Labels(counts[1..]);
      var rest := Bump(counts[1..], c, sev);
      assert ([counts[0]] + rest)[1..] == rest;
    } else if |counts| > 0 {
      var r := Bump(counts, c, sev);
      assert r[1..] == counts[1..];
      assert Labels(counts)[0] == c;
    }
  }

  /** Bumping adds one to exactly the counter of `sev` for `c`. */
  lemma {:induction false} BumpCount(counts: seq<CatCount>, c: string, sev: Severity, d: string, s: Severity)
    ensures CountOf(Bump(counts, c, sev), d, s) == CountOf(counts, d, s) + (if d == c && s == sev then 1 else 0)
    decreases |counts|
  {
    if |counts| > 0 && counts[0].category != c {
      BumpCount(counts[1..], c, sev, d, s);
      var rest := Bump(counts[1..], c, sev);
      assert ([counts[0]] + rest)[1..] == rest;
    } else if |counts| > 0 {
      var r := Bump(counts, c, sev);
      assert r[1..] == counts[1..];
    }
  }

  /** Bumping keeps every entry non-empty. */
  lemma {:induction false} BumpPositive(counts: seq<CatCount>, c: string, sev: Severity)
    requires Positive(counts)
    ensures Positive(Bump(counts, c, sev))
    decreases |counts|
  {
    if |counts| > 0 && counts[0].category != c {
      BumpPositive(counts[1..], c, sev);
      var rest := Bump(counts[1..], c, sev);
      assert forall k :: 1 <= k < |counts| ==> counts[1..][k - 1] == counts[k];
      assert forall k :: 1 <= k < 1 + |rest| ==> ([counts[0]] + rest)[k] == rest[k - 1];
    } else if |counts| > 0 {
      var r := Bump(counts, c, sev);
      assert forall k :: 1 <= k < |r| ==> r[k] == counts[k];
    }
  }

  /** One finding: resolve its category, fall back on the one in force, and count it if there is one. */
  function TallyStep(t: Table, st: TallyState, f: Finding): TallyState {
    var cat := match Resolve(t, f.source)
      case Some(c) => Some(c)
      case None => st.category;
    match cat
    case None => st
    case Some(c) => TallyState(cat, Bump(st.counts, c, f.severity))
  }

  /**
   * The loop variables after the findings `fs` of one file: the category in
   * force is that of the last finding the table matched, and the counters
   * hold exactly the counted findings, each incrementing one counter.
   */
  function TallyFindings(t: Table, fs: seq<Finding>): (st: TallyState)
    ensures st.category == Effective(t, fs)
    ensures Total(st.counts) == |Filed(t, fs)|
    decreases |fs|
  {
    if |fs| == 0 then TallyState(None, []) else TallyStep(t, TallyFindings(t, fs[..|fs| - 1]), fs[|fs| - 1])
  }

  // ---------------------------------------------------------------------------
  // Reference: the category each finding is filed under
  // ---------------------------------------------------------------------------

  /** The category of the last finding of `fs` the table matches, if any. */
  function Effective(t: Table, fs: seq<Finding>): Option<string>
    decreases |fs|
  {
    if |fs| == 0 then None
    else match Resolve(t, fs[|fs| - 1].source)
      case Some(c) => Some(c)
      case None => Effective(t, fs[..|fs| - 1])
  }

  /** The category each counted finding is filed under, in order; findings before the first match are skipped. */
  function Filed(t: Table, fs: seq<Finding>): seq<string>
    decreases |fs|
  {
    if |fs| == 0 then []
    else
      var prev := Filed(t, fs[..|fs| - 1]);
      match Effective(t, fs)
      case None => prev
      case Some(c) => prev + [c]
  }

  /** How many findings of severity `sev` are filed under category `c`. */
  function Count(t: Table, fs: seq<Finding>, c: string, sev: Severity): nat
    decreases |fs|
  {
    if |fs| == 0 then 0
    else Count(t, fs[..|fs| - 1], c, sev)
         + (if Effective(t, fs) == Some(c) && fs[|fs| - 1].severity == sev then 1 else 0)
  }

  lemma DedupSnoc(s: seq<string>, x: string)
    ensures Dedup(s + [x]) == if x in Dedup(s) then Dedup(s) else Dedup(s) + [x]
  {
    assert (s + [x])[..|s|] == s;
  }

  /** One more finding is counted under the category in force after it, or not at all when there is none. */
  lemma TallySnoc(t: Table, fs: seq<Finding>)
    requires |fs| > 0
    ensures var st := TallyFindings(t, fs[..|fs| - 1]);
      TallyFindings(t, fs).counts == match Effective(t, fs)
        case None => st.counts
        case Some(c) => Bump(st.counts, c, fs[|fs| - 1].severity)
  {
  }

  /** The counters appear in order of first use of their category. */
  lemma {:induction false} TallyLabels(t: Table, fs: seq<Finding>)
    ensures Labels(TallyFindings(t, fs).counts) == Dedup(Filed(t, fs))
    decreases |fs|
  {
    if |fs| > 0 {
      var init := fs[..|fs| - 1];
      TallyLabels(t, init);
      TallySnoc(t, fs);
      match Effective(t, fs)
      case None =>
      case Some(c) =>
        DedupSnoc(Filed(t, init), c);
        BumpLabels(TallyFindings(t, init).counts, c, fs[|fs| - 1].severity);
    }
  }

  /** Every counter equals the number of findings filed under its category with its severity. */
  lemma {:induction false} TallyCounts(t: Table, fs: seq<Finding>, d: string, s: Severity)
    ensures CountOf(TallyFindings(t, fs).counts, d, s) == Count(t, fs, d, s)
    decreases |fs|
  {
    if |fs| > 0 {
      var init := fs[..|fs| - 1];
      TallyCounts(t, init, d, s);
      TallySnoc(t, fs);
      match Effective(t, fs)
      case None =>
      case Some(c) =>
        BumpCount(TallyFindings(t, init).counts, c, fs[|fs| - 1].severity, d, s);
    }
  }

  /** Every entry has counted at least one finding, so each one becomes a record. */
  lemma {:induction false} TallyPositive(t: Table, fs: seq<Finding>)
    ensures Positive(TallyFindings(t, fs).counts)
    decreases |fs|
  {
    if |fs| > 0 {
      var init := fs[..|fs| - 1];
      TallyPositive(t, init);
      TallySnoc(t, fs);
      match Effective(t, fs)
      case None =>
      case Some(c) =>
        BumpPositive(TallyFindings(t, init).counts, c, fs[|fs| - 1].severity);
    }
  }

  /** Distinct categories get distinct entries. */
  lemma TallyDistinct(t: Table, fs: seq<Finding>)
    ensures Distinct(Labels(TallyFindings(t, fs).counts))
  {
    TallyLabels(t, fs);
  }

  /** A finding the table does not match, after one it did, is counted under the earlier category. */
  lemma StaleCategory(t: Table, fs: seq<Finding>, f: Finding, c: string)
    requires Resolve(t, f.source) == None && Effective(t, fs) == Some(c)
    ensures CountOf(TallyFindings(t, fs + [f]).counts, c, f.severity) == CountOf(TallyFindings(t, fs).counts, c, f.severity) + 1
  {
    var q := fs + [f];
    assert q[..|fs|] == fs;
    TallyCounts(t, fs, c, f.severity);
    TallyCounts(t, q, c, f.severity);
  }

  /** A finding the table does not match, before any finding it did, is skipped. */
  lemma SkippedBeforeMatch(t: Table, fs: seq<Finding>, f: Finding)
    requires Resolve(t, f.source) == None && Effective(t, fs) == None
    ensures TallyFindings(t, fs + [f]) == TallyFindings(t, fs)
  {
    var q := fs + [f];
    assert q[..|fs|] == fs;
  }

  /**
   * With a one-entry table: a matched error, then an unmatched warning,
   * gives one category holding both.
   */
  lemma StaleExample()
    ensures TallyFindings([Rule("A.", "cat a")], [Finding("A.x", Error), Finding("B.y", Warning)]).counts
         == [CatCount("cat a", 1, 1)]
  {
    var t := [Rule("A.", "cat a")];
    var f1, f2 := Finding("A.x", Error), Finding("B.y", Warning);
    assert IsPrefix("A.", f1.source);
    assert ResolveIndex(t, f1.source) == Some(0);
    assert f2.source[0] != 'A';
    assert !IsPrefix("A.", f2.source);
    assert ResolveIndex(t, f2.source) == None;
    var p1 := [f1];
    assert p1[..0] == [];
    assert TallyFindings(t, p1) == TallyState(Some("cat a"), [CatCount("cat a", 1, 0)]);
    var p2 := [f1, f2];
    assert p2[..1] == p1;
  }
}

=== FILE: text.dfy ===
/**
 * The PHP string primitives the report relies on: `explode`/`implode` on a
 * multi-character delimiter, decimal rendering and reading of counters, and
 * the case-insensitive substring search of `stripos`.
 */
module Text {
  import opened Wrappers
  import opened Seqs

  /** PHP_EOL on the platforms the report is run on. */
  const EOL: string := "\n"

  /** The field separator of the intermediate records. */
  const FieldSep: string := ">>"

  /** `p` is a literal, case-sensitive prefix of `s` (strpos(s, p) === 0). */
  predicate IsPrefix(p: string, s: string) {
    |p| <= |s| && s[..|p|] == p
  }

  // ---------------------------------------------------------------------------
  // explode / implode
  // ---------------------------------------------------------------------------

  /** `d` occurs in `s` starting at index `i`. */
  predicate OccursAt(s: string, d: string, i: int) {
    0 <= i && i + |d| <= |s| && s[i..i + |d|] == d
  }

  lemma OccursShift(s: string, d: string)
    requires |s| > 0
    ensures forall j :: 1 <= j ==> (OccursAt(s, d, j) <==> OccursAt(s[1..], d, j - 1))
  {
    forall j | 1 <= j
      ensures OccursAt(s, d, j) <==> OccursAt(s[1..], d, j - 1)
    {
      if j + |d| <= |s| {
        assert s[1..][j - 1..j - 1 + |d|] == s[j..j + |d|];
      }
    }
  }

  lemma OccursHead(s: string, d: string, j: int)
    requires |d| > 0
    ensures OccursAt(s, d, j) ==> s[j] == d[0]
  {
    if OccursAt(s, d, j) {
      assert s[j..j + |d|][0] == s[j];
    }
  }

  /** The leftmost occurrence of the non-empty `d` in `s`. */
  function IndexOf(s: string, d: string): (r: Option<nat>)
    requires |d| > 0
    ensures r.Some? ==> OccursAt(s, d, r.value)
    ensures r.Some? ==> forall j :: 0 <= j < r.value ==> !OccursAt(s, d, j)
    ensures r.None? ==> forall j :: !OccursAt(s, d, j)
    decreases |s|
  {
    if |s| < |d| then None
    else if s[..|d|] == d then Some(0)
    else
      var rest := IndexOf(s[1..], d);
      OccursShift(s, d);
      assert !OccursAt(s, d, 0);
      match rest
      case None => None
      case Some(k) => Some(k + 1)
  }

  /** PHP `explode(d, s)`: the pieces of `s` between the leftmost-first occurrences of `d`. */
  function Split(s: string, d: string): (parts: seq<string>)
    requires |d| > 0
    ensures |parts| >= 1
    decreases |s|
  {
    match IndexOf(s, d)
    case None => [s]
    case Some(i) => [s[..i]] + Split(s[i + |d|..], d)
  }

  /** PHP `implode(d, parts)`. */
  function Join(parts: seq<string>, d: string): string
    decreases |parts|
  {
    if |parts| == 0 then ""
    else if |parts| == 1 then parts[0]
    else parts[0] + d + Join(parts[1..], d)
  }

  /** `c` does not occur in `s`. */
  predicate Avoids(s: string, c: char) {
    forall k :: 0 <= k < |s| ==> s[k] != c
  }

  /** Joining the pieces of a split gives back the original string. */
  lemma {:induction false} JoinSplit(s: string, d: string)
    requires |d| > 0
    ensures Join(Split(s, d), d) == s
    decreases |s|
  {
    match IndexOf(s, d)
    case None =>
    case Some(i) =>
      var rest := s[i + |d|..];
      var tail := Split(rest, d);
      JoinSplit(rest, d);
      var parts := [s[..i]] + tail;
      assert Split(s, d) == parts;
      assert parts[1..] == tail;
      assert Join(parts, d) == s[..i] + d + Join(tail, d);
      assert s[i..i + |d|] == d;
      assert s == s[..i] + s[i..i + |d|] + rest;
  }

  /** A piece free of the delimiter's first character is the first piece of `p + d + rest`. */
  lemma IndexOfAfterClean(p: string, d: string, rest: string)
    requires |d| > 0 && Avoids(p, d[0])
    ensures IndexOf(p + d + rest, d) == Some(|p|)
  {
    var s := p + d + rest;
    assert s[|p|..|p| + |d|] == d;
    assert OccursAt(s, d, |p|);
    forall j | 0 <= j < |p|
      ensures !OccursAt(s, d, j)
    {
      OccursHead(s, d, j);
      assert s[j] == p[j];
    }
  }

  lemma IndexOfClean(p: string, d: string)
    requires |d| > 0 && Avoids(p, d[0])
    ensures IndexOf(p, d) == None
  {
    forall j | 0 <= j
      ensures !OccursAt(p, d, j)
    {
      OccursHead(p, d, j);
    }
  }

  /** Splitting `p + d + rest` cuts off `p` when `p` is free of the delimiter's first character. */
  lemma SplitFirst(p: string, d: string, rest: string)
    requires |d| > 0 && Avoids(p, d[0])
    ensures Split(p + d + rest, d) == [p] + Split(rest, d)
  {
    var s := p + d + rest;
    IndexOfAfterClean(p, d, rest);
    assert s[..|p|] == p;
    assert s[|p| + |d|..] == rest;
  }

  /**
   * Splitting joined pieces recovers them, provided no piece contains the
   * delimiter's first character (so no delimiter can straddle a boundary).
   */
  lemma {:induction false} SplitJoin(parts: seq<string>, d: string)
    requires |d| > 0 && |parts| >= 1
    requires forall k :: 0 <= k < |parts| ==> Avoids(parts[k], d[0])
    ensures Split(Join(parts, d), d) == parts
    decreases |parts|
  {
    if |parts| == 1 {
      IndexOfClean(parts[0], d);
    } else {
      var tail := parts[1..];
      assert forall k :: 0 <= k < |tail| ==> tail[k] == parts[k + 1];
      SplitJoin(tail, d);
      var j := Join(tail, d);
      assert Join(parts, d) == parts[0] + d + j;
      SplitFirst(parts[0], d, j);
      HeadTail(parts);
    }
  }

  // ---------------------------------------------------------------------------
  // Decimal counters, as `echo` prints an int and `+=` reads a numeric string
  // ---------------------------------------------------------------------------

  predicate IsDigit(c: char) {
    '0' <= c <= '9'
  }

  predicate AllDigits(s: string) {
    forall k :: 0 <= k < |s| ==> IsDigit(s[k])
  }

  function Digit(n: nat): (c: char)
    requires n < 10
  {
    (n + '0' as int) as char
  }

  function DigitValue(c: char): nat
    requires IsDigit(c)
  {
    c as int - '0' as int
  }

  /** The canonical decimal spelling of a non-negative integer. */
  function NatToString(n: nat): (s: string)
    ensures |s| >= 1 && AllDigits(s)
    ensures |s| > 1 ==> s[0] != '0'
    decreases n
  {
    if n < 10 then [Digit(n)] else NatToString(n / 10) + [Digit(n % 10)]
  }

  function DigitsValue(s: string): nat
    requires AllDigits(s)
    decreases |s|
  {
    if |s| == 0 then 0 else DigitsValue(s[..|s| - 1]) * 10 + DigitValue(s[|s| - 1])
  }

  /** Reads a field written by `NatToString`; anything but a run of digits is rejected. */
  function ParseNat(s: string): (r: Option<nat>)
    ensures r.Some? <==> |s| > 0 && AllDigits(s)
  {
    if |s| > 0 && AllDigits(s) then Some(DigitsValue(s)) else None
  }

  /** Reading back a rendered counter gives the counter. */
  lemma {:induction false} ParseNatToString(n: nat)
    ensures ParseNat(NatToString(n)) == Some(n)
    decreases n
  {
    var s := NatToString(n);
    if n < 10 {
      assert s == [Digit(n)];
      assert DigitValue(Digit(n)) == n;
      assert DigitsValue(s) == DigitsValue(s[..0]) * 10 + DigitValue(s[0]);
    } else {
      ParseNatToString(n / 10);
      assert s[..|s| - 1] == NatToString(n / 10);
      assert DigitValue(s[|s| - 1]) == n % 10;
      assert DigitsValue(s) == (n / 10) * 10 + n % 10;
    }
  }

  // ---------------------------------------------------------------------------
  // stripos
  // ---------------------------------------------------------------------------

  /** ASCII lower-casing, as PHP's case-insensitive string functions apply it. */
  function LowerChar(c: char): char {
    if 'A' <= c <= 'Z' then (c as int + 32) as char else c
  }

  function Lower(s: string): (r: string)
    ensures |r| == |s|
  {
    seq(|s|, i requires 0 <= i < |s| => LowerChar(s[i]))
  }

  /** `needle` occurs in `hay` at `i`, ignoring ASCII case. */
  predicate MatchesAt(hay: string, needle: string, i: int) {
    0 <= i && i + |needle| <= |hay| && Lower(hay[i..i + |needle|]) == Lower(needle)
  }

  lemma MatchesShift(hay: string, needle: string)
    requires |hay| > 0
    ensures forall i :: 1 <= i ==> (MatchesAt(hay, needle, i) <==> MatchesAt(hay[1..], needle, i - 1))
  {
    forall i | 1 <= i
      ensures MatchesAt(hay, needle, i) <==> MatchesAt(hay[1..], needle, i - 1)
    {
      if i + |needle| <= |hay| {
        assert hay[1..][i - 1..i - 1 + |needle|] == hay[i..i + |needle|];
      }
    }
  }

  /** `stripos(hay, needle) !== false`, as a left-to-right scan. */
  function ContainsCI(hay: string, needle: string): (r: bool)
    ensures r <==> exists i :: MatchesAt(hay, needle, i)
    decreases |hay|
  {
    if |needle| > |hay| then false
    else if Lower(hay[..|needle|]) == Lower(needle) then (assert MatchesAt(hay, needle, 0); true)
    else
      var found := ContainsCI(hay[1..], needle);
      MatchesShift(hay, needle);
      assert !MatchesAt(hay, needle, 0);
      assert found ==> exists i :: MatchesAt(hay[1..], needle, i);
      assert found ==> exists i :: MatchesAt(hay, needle, i) by {
        if found {
          var i :| MatchesAt(hay[1..], needle, i);
          assert MatchesAt(hay, needle, i + 1);
        }
      }
      found
  }
}

=== FILE: wrappers.dfy ===
/** Failure-compatible wrappers shared by the whole model. */
module Wrappers {

  /** An optional value: a lookup that may miss. */
  datatype Option<+T> = None | Some(value: T)

  /** The outcome of an operation that may abort, carrying the exit code on failure. */
  datatype Result<+R, +E> = Success(value: R) | Failure(error: E) {
    predicate IsFailure() {
      Failure?
    }

    function PropagateFailure<U>(): Result<U, E>
      requires Failure?
    {
      Failure(error)
    }

    function Extract(): R
      requires Success?
    {
      value
    }
  }
}
